=== FILE: README.md ===
# L7 shared-VS translator and DataScript REST layer, in Dafny

This project models two parts of an ingress controller for a load balancer.

The first part is the **L7 graph translator**. It normalises one Kubernetes ingress into two things:

- a host → path-binding map;
- a list of TLS groupings.

It builds a shared virtual service (VS) skeleton once. That skeleton has two listener ports, a shared pool group (PG) and an HTTP DataScript. On every reconciliation pass of an ingress, the translator:

- detaches that ingress's pools from the shared VS;
- rebuilds one pool per plain host/path;
- attaches one SNI child VS per TLS grouping whose secret holds both a certificate and a key. The child carries its cert node, one pool and one PG per host/path, and one HTTP policy set;
- regenerates the shared PG's members from the VS's pool list.

The second part is the **DataScript-set REST layer**. It does three things:

- It builds the create (POST through the macro endpoint) or update (PUT by cached identifier) operation for an HTTP DataScript node, and the delete operation.
- It applies a create/update result to the local identity cache. Each valid element of the response is cached under its tenant and name, and its key is linked, once, into the owning VS entry's dependent-key collection.
- It applies a delete result.

## How it is modelled

The model is functional. Nodes are immutable datatypes. A step returns the new registry, VS or cache.

- **Pointers.**
  - The registry (`AviObjectGraph`) is a sequence of model nodes, and a Go pointer to a registered node is its position.
  - The shared pool group is one Go object reachable from two places: the registry and the VS's pool-group list. A pass writes the regenerated members to both places (`ResetAliasedMembers`).
  - `ResetAliasedMembers` rewrites every entry of the VS's pool-group list that carries the shared name, where Go updates the one object (pkg/nodes/avi_model_l7_translator.go:108-112). The two agree whenever every list entry of the shared name equals the registered pool group (`SharedPoolRefsAliased`). `ConstructAviL7VsNode` sets this up when the registry it starts from holds no pool group of the shared name, and every pass keeps it (`PassKeepsAliased`).
- **Map iteration order.** Go gives no order when iterating a map, and every `range` may pick a new one. So every pass takes its orders as an input (`PassOrder`, `Enumerates`). Contracts hold for every order, and two passes may use different orders.
- **Parser.** A pass reads the ingress through the parser as written (`HostPath.ParseHostPathForIngress`), so its cumulative binding lists and its one shared TLS host map reach the graph. The corrected parser stands beside it.
- **External collaborators are inputs:**
  - the ingress lister is an `IngressLookup` (found, not found, other error);
  - the secret client is a map from secret name to data fields;
  - the endpoint resolver is a map from service name to servers;
  - a REST outcome (error, response, extracted elements) arrives as data.
- **Constants.** Those defined in the utility package are carried as an opaque `Constants` record. `tls.crt` and `80` are fixed constants.
- **Cache keys.** The Go caches are keyed by `interface{}`. `CacheKey` separates an object key (`NamespaceName`) from any other string used as a key.

Modules follow the program's structure:

- `Ingress`: the input types.
- `HostPath`: `parseHostPathForIngress`, together with its corrected form.
- `AviNodes`: node records and the registry.
- `L7Translator`: the graph builder.
- `AviCache`: cache entries and key collections.
- `DataScriptRest`: the operations in `pkg/rest/avi_datascript.go`.
- `Findings`: concrete inputs on which the code departs from its evident intent.
- `Strings`, `Config`, `Wrappers`: helpers.

## Model

| member | source | states |
|---|---|---|
| HostPath.RuleBindings | pkg/nodes/avi_model_l7_translator.go:129-138 | one binding per path of the rule, in order, with the path and service kept; a zero port becomes 80, and any other port is kept |
| HostPath.ParseHostPathForIngress | pkg/nodes/avi_model_l7_translator.go:115-162 | the plain map is the rule loop's map minus every host some TLS entry lists; there is one grouping per TLS entry, with its secret; and every grouping holds the same map: all listed hosts that were in the rule loop's map |
| HostPath.RuleLoopKeys | pkg/nodes/avi_model_l7_translator.go:121-142 | a key is in the host map exactly when some rule is filed under it |
| HostPath.RuleHostKeying | pkg/nodes/avi_model_l7_translator.go:122-128 | a rule with an empty host is filed under the ingress name and any other rule under its host; every key comes from such a rule |
| HostPath.RuleLoopCumulative | pkg/nodes/avi_model_l7_translator.go:117-141 | each host's list is the whole binding list accumulated up to the last rule filed under that host, not just that host's own bindings |
| HostPath.MoveTlsHostsEffect | pkg/nodes/avi_model_l7_translator.go:148-154 | one TLS entry removes its listed hosts from the host map and copies those that were there into the TLS map, unchanged |
| HostPath.TlsLoopEffect | pkg/nodes/avi_model_l7_translator.go:143-157 | after all entries, the host map has lost every listed host, and the TLS map holds exactly the listed hosts that were in the host map |
| HostPath.TlsHostSetMembers | pkg/nodes/avi_model_l7_translator.go:145-148 | a host is in the listed-host set exactly when some TLS entry lists it |
| HostPath.TlsHostsLeavePlainMap | pkg/nodes/avi_model_l7_translator.go:143-159 | a listed host is absent from the plain map; a listed host that had rules is in every grouping with its bindings; a host without rules is in no grouping; an unlisted host keeps its bindings in the plain map |
| HostPath.TlsGroupingsShareOneMap | pkg/nodes/avi_model_l7_translator.go:143-158 | all groupings carry one and the same map; each keeps its entry's secret; and that map and the plain map split the rule loop's keys without overlap |
| HostPath.PerHostMapOwnBindings | pkg/nodes/avi_model_l7_translator.go:117-141 | corrected rule loop: it has the same hosts, and a host's list holds a binding exactly when some rule filed under that host has it |
| HostPath.TlsLoopPerEntryEffect | pkg/nodes/avi_model_l7_translator.go:143-157 | corrected TLS loop: each grouping holds only hosts its own entry lists, with their bindings from the host map; a host of the map lands in the grouping of the first entry that lists it; groupings are pairwise disjoint; the plain map loses every listed host |
| HostPath.ParseHostPathCorrected | pkg/nodes/avi_model_l7_translator.go:115-162 | corrected parser: the plain map is the per-host map minus the listed hosts; each grouping is limited to its own entry's hosts, disjoint from the plain map and from every other grouping; a listed host that has rules is in the grouping of the first entry listing it, with its own bindings; and every host a grouping holds has rules, and carries exactly its own bindings |
| AviNodes.VsPositions | pkg/nodes/avi_model_l7_translator.go:44 | the VS lookup returns exactly the registry positions holding a VS, in increasing order |
| AviNodes.PoolGroupPositionFrom | pkg/nodes/avi_model_l7_translator.go:42-43 | the pool-group lookup by name finds the first registered PG of that name, or reports that there is none |
| AviNodes.VsPositionsAppend | pkg/nodes/avi_model_l7_translator.go:180 | registering a node adds its position to the VS positions exactly when it is a VS |
| AviNodes.SameShapesSameLookups | pkg/nodes/avi_model_l7_translator.go:106-112 | replacing registry entries by entries of the same kind (and, for PGs, the same name) changes neither the VS lookup nor the PG lookup |
| L7Translator.ConstructShardVsPGNode | pkg/nodes/avi_model_l7_translator.go:186-192 | the PG is named after the VS plus the PG prefix, is in the admin tenant, has an implicit priority label and no members, and is both linked from the VS and registered |
| L7Translator.ConstructHTTPDataScript | pkg/nodes/avi_model_l7_translator.go:194-206 | the DataScript is named `<vs>-http-datascript`, carries the HTTP-request script and event, refers to the shared PG alone, and is both linked from the VS and registered |
| L7Translator.ConstructAviL7VsNode | pkg/nodes/avi_model_l7_translator.go:164-206 | the shared VS is an SNI parent in the admin tenant with ports 80 (plain) and 443 (SSL), the secure application and TCP network profiles, one PG and one DataScript; the PG is `<vs>` plus the PG prefix, in the admin tenant, with implicit priority labels and no members; the DataScript is `<vs>-http-datascript`, in the admin tenant, with the HTTP script and request event, and refers to that PG; every other VS field keeps its empty default; the registry gains exactly the VS, then the PG, then the DataScript |
| L7Translator.ConstructEnablesBuild | pkg/nodes/avi_model_l7_translator.go:42-48 | building the skeleton into a registry without a VS leaves exactly one VS and the shared PG present, so a pass can run; when the registry held no PG of the shared name, the lookup finds the skeleton's own PG and the VS's reference is that PG |
| L7Translator.PassKeepsAliased | pkg/nodes/avi_model_l7_translator.go:106-112 | when the VS's references to the shared PG equal the registered PG, they still do after a pass, as with Go's single object |
| L7Translator.RoutesCover | pkg/nodes/avi_model_l7_translator.go:74-75 | the nested host/path loops visit only (host, binding) pairs of the map, and every pair, whatever the iteration order; each visit's path list is that host's paths up to the binding |
| L7Translator.DetachMembers | pkg/nodes/avi_model_l7_translator.go:63-68 | a pool survives detaching exactly when it was attached and is not owned by the ingress |
| L7Translator.DetachAppend | pkg/nodes/avi_model_l7_translator.go:63-68 | detaching distributes over concatenation of pool lists |
| L7Translator.DetachIdempotent | pkg/nodes/avi_model_l7_translator.go:63-68 | detaching an ingress's pools twice is the same as detaching them once |
| L7Translator.BuildTlsCertNode | pkg/nodes/avi_model_l7_translator.go:208-236 | reports success exactly when the secret exists with both its certificate and key fields; on failure the SNI node is unchanged; on success exactly one cert node `<ns>-<secret>` with that certificate and key is appended |
| L7Translator.BuildPolicyPGPoolsForSNI | pkg/nodes/avi_model_l7_translator.go:238-272 | per visited host/path, one pool and one PG of the same name `<ns>--<ing>--<host>--<path>`, the PG's only member being that pool; one policy set `<ing>--<ns>--<secret>` with a rule per host/path (its host, the paths so far, EQUALS, its PG); each new pool serves the endpoints of its binding's service; the new pools, PGs and the policy set are in the admin tenant; the VH domain names the last host visited; every other field is unchanged |
| L7Translator.SniPoolsCoverGrouping | pkg/nodes/avi_model_l7_translator.go:240-263 | the new SNI pools are exactly one per (host, binding) pair of the grouping: each pair gets its pool, and each pool belongs to a pair |
| L7Translator.SniChildBuilt | pkg/nodes/avi_model_l7_translator.go:96-101 | for one grouping, the cert step succeeds exactly when the certificate is available, and then yields a child named `<ing>--<secret>` that points at the shared VS and carries one cert and one policy set |
| L7Translator.SniChildrenAttached | pkg/nodes/avi_model_l7_translator.go:93-102 | a pass attaches exactly as many children as there are groupings whose certificate is available; every attached child belongs to a grouping whose certificate is available; and every such grouping has its child attached |
| L7Translator.BuildL7VSGraph | pkg/nodes/avi_model_l7_translator.go:38-113 | with other than exactly one VS nothing changes; otherwise the registry keeps its shape, so the VS and PG lookups still find the same nodes, and the shared PG's members are exactly the VS's pools, in order, with their priority labels; the PG changes only in its members, the VS only in its pools, SNI children and PG references, and every other registry entry is untouched |
| L7Translator.BuildL7VSGraphEffect | pkg/nodes/avi_model_l7_translator.go:106-112 | the shared VS after a pass carries the updated pools and SNI children; the PG seen from the VS's pool-group list carries the same regenerated members as the registered PG, and every other PG reference is untouched; the VS and the registered PG change in nothing else, and no other registry entry changes |
| L7Translator.PlainPoolsCover | pkg/nodes/avi_model_l7_translator.go:74-91 | the rebuilt pools are owned by the ingress, in the admin tenant, labelled with host and path (host alone for an empty path), named from the label, namespace and ingress, on the binding's port and serving the endpoints of the binding's service; there is one for every (host, binding) pair |
| L7Translator.BuildL7VSGraphFound | pkg/nodes/avi_model_l7_translator.go:62-102 | a pass for a found ingress keeps exactly the other ingresses' pools, in order, followed by one pool per visit of the parser's plain map, so exactly as many new pools as (host, binding) visits; each is a pair's pool, on that binding's port and serving its service's endpoints, and every pair has one; its SNI children, built from the parser's groupings, are appended after the existing ones |
| L7Translator.BuildL7VSGraphNotFound | pkg/nodes/avi_model_l7_translator.go:49-61 | a pass for a deleted ingress removes exactly that ingress's pools and no SNI child; a pass with any other lookup error changes neither pools nor SNI children |
| L7Translator.RoutesPermutation | pkg/nodes/avi_model_l7_translator.go:74-75 | two duplicate-free orders of the same hosts visit the same (host, binding) pairs, as a multiset |
| L7Translator.PlainPoolsOrderFree | pkg/nodes/avi_model_l7_translator.go:74-91 | whatever order the plain hosts are walked in, the rebuilt pools are the same multiset |
| L7Translator.MembersPermutation | pkg/nodes/avi_model_l7_translator.go:106-112 | pool lists that are permutations of each other give PG member lists that are permutations of each other |
| L7Translator.SniChildrenOrderFree | pkg/nodes/avi_model_l7_translator.go:93-102 | whatever orders the groupings' hosts are walked in, a pass attaches the same number of SNI children, with the same names in the same positions |
| L7Translator.RebuildStable | pkg/nodes/avi_model_l7_translator.go:63-91 | detaching the ingress's pools again after a rebuild gives back exactly the pools the first detach kept |
| L7Translator.PassPoolsRepeat | pkg/nodes/avi_model_l7_translator.go:49-91 | over two passes with the same inputs, the kept pools stay in front, and the second pool list is a permutation of the first; it is the same list when the plain hosts are walked in the same order |
| L7Translator.PassSniRepeat | pkg/nodes/avi_model_l7_translator.go:93-102 | over two passes with the same inputs, the SNI child list is never cleared and grows again by children of the same names; with the same orders, by the same children |
| L7Translator.BuildL7VSGraphRepeat | pkg/nodes/avi_model_l7_translator.go:38-113 | repeating a pass with the same inputs, the second pass walking the maps in any order: the other ingresses' pools stay in front; the pool list and the PG's members are the same up to order, and the same lists when the plain hosts come in the same order; the members are regenerated from the second pool list; the SNI child list grows again by children of the same names |
| Strings.ReplaceFirst | pkg/rest/avi_datascript.go:33 | the first occurrence of the pattern, and only that one, is replaced; a string without the pattern is unchanged |
| AviCache.AppendUnique | pkg/rest/avi_datascript.go:109-116 | the key is in the result; it is appended after the old keys only when it was absent, and otherwise the collection is unchanged; duplicate-freedom is kept |
| AviCache.RemoveKey | pkg/rest/avi_datascript.go:140 | removes the first occurrence of the key and keeps the other keys in their order (so the multiset loses one copy of the key); a collection without the key is unchanged, and in a duplicate-free collection the key is gone afterwards |
| DataScriptRest.AviDSBuild | pkg/rest/avi_datascript.go:28-60 | the node's first POOLGROUP placeholder is replaced by its first PG ref, and nothing else in the node changes; with a cache entry the operation is a PUT to `/api/vsdatascriptset/<uuid>` carrying the set, and without one a POST to `/api/macro` carrying the set in the macro envelope |
| DataScriptRest.AviDSDel | pkg/rest/avi_datascript.go:62-69 | a DELETE of `/api/vsdatascriptset/<uuid>` with no body, in the given tenant |
| DataScriptRest.UpdateAndDeleteAgree | pkg/rest/avi_datascript.go:46-65 | an update and a delete built from the same cache entry address the same object in the same tenant |
| DataScriptRest.ElementKey | pkg/rest/avi_datascript.go:85-95 | a response element counts exactly when both its name and uuid are strings |
| DataScriptRest.LinkDsKey | pkg/rest/avi_datascript.go:104-125 | an existing VS entry gains the key once; a missing VS entry is created holding only the key; a value of another type is left alone; other VS entries are untouched |
| DataScriptRest.AviDSCacheAdd | pkg/rest/avi_datascript.go:71-131 | reports an error exactly when the operation failed, has no response or has no elements of this type, and then leaves the cache unchanged; otherwise it applies the elements |
| DataScriptRest.AddElementsEntries | pkg/rest/avi_datascript.go:84-103 | each DataScript key holds the entry from the last valid element naming it; every other key, and every VS entry other than the owner, is untouched |
| DataScriptRest.AddElementsLinks | pkg/rest/avi_datascript.go:104-125 | the owner's collection starts with its old keys and holds exactly those plus every valid element's key, each once |
| DataScriptRest.AddElementsForeign | pkg/rest/avi_datascript.go:105-108 | with a value of another type under the owner's key, the VS cache does not change |
| DataScriptRest.AddElementsKeepsLinks | pkg/rest/avi_datascript.go:84-128 | applying a create/update result keeps every dependent key pointing at a live DataScript entry, and every collection duplicate-free |
| DataScriptRest.CreateThenUpdate | pkg/rest/avi_datascript.go:46-125 | a node with no cache entry is built as a create; once the created result is applied, the next build is an update addressed by the returned uuid, and the owner lists the node's key |
| DataScriptRest.AviDSCacheDel | pkg/rest/avi_datascript.go:133-145 | as written: only the entry under the logging key is removed from the DataScript cache; the object's key loses one occurrence in the owner's collection; other VS entries are untouched; no error is ever reported |
| DataScriptRest.DeleteKeepsLinks | pkg/rest/avi_datascript.go:133-145 | the as-written delete keeps dependent keys live and collections duplicate-free |
| DataScriptRest.AviDSCacheDelCorrected | pkg/rest/avi_datascript.go:133-145 | corrected: the entry under the object's own key is removed, and in a duplicate-free owner collection the key is gone afterwards |
| DataScriptRest.DeleteCorrectedKeepsLinks | pkg/rest/avi_datascript.go:133-145 | the corrected delete keeps dependent keys live, given that no other VS depends on the deleted DataScript |
| DataScriptRest.DeleteThenBuildCreates | pkg/rest/avi_datascript.go:46-55 | after the corrected delete is applied, the object has no cache entry and the next build of that node is a create |
| Findings.CumulativeBindingsCounterexample | pkg/nodes/avi_model_l7_translator.go:117-141 | on two single-path rules for `a.com` and `b.com`, the parser gives `b.com` the binding of `a.com` as well, while the corrected parser gives it only its own |
| Findings.SharedTlsMapCounterexample | pkg/nodes/avi_model_l7_translator.go:143-157 | on TLS entries `sec1: [a.com]` and `sec2: [b.com]`, the first grouping holds `b.com` as written, and does not in the corrected parser |
| Findings.DeleteLeavesObjectEntry | pkg/rest/avi_datascript.go:133-135 | whatever the logging key, the as-written delete leaves the deleted object's cache entry in place |
| Findings.StaleDataScriptCounterexample | pkg/rest/avi_datascript.go:133-135 | after deleting `ds1` as written, rebuilding `ds1` is a PUT to the deleted identifier, while after the corrected delete it is a POST |

## Left out

- Logging, and the `key` correlation id of every function. The id is kept only in `AviDSCacheDel`, which uses it as a cache key.
- Concurrency and locking around the registry and the caches.
- Go map iteration order is not chosen by the model. It is an input that must list each key once (`Enumerates`), and the contracts quantify over all such orders.
- `PopulateServers`, the ingress lister, the secret client and `RestRespArrToObjByType` are not part of this model. They are inputs: an endpoint map, an `IngressLookup`, a secret map, and the `elements` field of `RestResponse`. A nil server list and an empty one are the same empty sequence.
- `GetAviVS`, `GetPoolGroupByName` and `AddModelNode` are not part of this model. They are modelled as a registry scan, a first-match search and an append.
- `GetAviPoolNodesByIngress` and `RemovePoolNodeRefs` are not part of this model.
  - Together they are modelled as `DetachIngressPools`, which removes the VS pools whose owning ingress is `ingName`.
  - Tenant and pool-name matching are folded into that, because every pool the translator creates is in the admin tenant, and its name embeds the ingress name.
- `Remove` is not part of this model. `RemoveKey` models it as removal of the first occurrence, with the other keys kept in their order.
- L7Translator.BuildL7VSGraph: requires that the shared PG exists whenever there is exactly one VS. Otherwise the Go code dereferences a nil pool group at line 108.
- Ingress rules without an HTTP section are not modelled. Every rule carries a path list, and the Go code dereferences a nil `HTTP` there.
- Integer widths are not modelled. Ports are `int`, and the Go code's `int32` port is only compared with 0.
- No corrected pass is modelled. The translator reads the ingress through the as-written parser. The corrected parser is proved on its own, not fed into a pass.
- DataScriptRest.AviDSDel: the object name is left empty, as `AviDSDel` leaves it. Callers fill it before the delete result is applied.
- DataScriptRest.AviDSBuild: the operation's `ObjName` is left empty, as `AviDSBuild` leaves it.
- L7Translator.SniChildrenAttached: identifies each grouping's child by name, cert and policy count, not by its position among the children.
- L7Translator.ResetAliasedMembers: when the registry held a PG of the shared name before the skeleton was built, the lookup finds that older PG while the VS's list holds the skeleton's. Go then writes the members only to the older PG, and the model also writes them into the VS's entry. Registries of that kind are outside what `PassKeepsAliased` covers.
- L7Translator.BuildL7VSGraphRepeat: with different orders, states that the new SNI children have the same names as the first pass's, not that their pool lists are permutations of each other.

## Findings

| source | as written | input that shows it | evidently intended | confidence | as-written member | corrected member |
|---|---|---|---|---|---|---|
| pkg/nodes/avi_model_l7_translator.go:117-141 | one binding slice grows across all rules, and each host is filed with the whole slice so far | rules `a.com: /x → svcA:80` then `b.com: /y → svcB` | each host lists only the bindings of its own rules | high; not executed | Findings.CumulativeBindingsCounterexample | HostPath.PerHostMapOwnBindings |
| pkg/nodes/avi_model_l7_translator.go:143-157 | one TLS host map is shared by every TLS entry, so every grouping holds every listed host | TLS entries `sec1: [a.com]`, `sec2: [b.com]` over the rules above | each grouping holds only the hosts its own entry lists | high; not executed | Findings.SharedTlsMapCounterexample | HostPath.ParseHostPathCorrected |
| pkg/rest/avi_datascript.go:133-135 | the DataScript cache entry is deleted under the logging key, not under the object's key, so it survives | cached `admin/ds1` with uuid `u1`, deleted, then `ds1` rebuilt | the delete removes the entry under `NamespaceName(tenant, objName)`, so the rebuild is a create | high; not executed | Findings.StaleDataScriptCounterexample | DataScriptRest.DeleteThenBuildCreates |

=== FILE: avi_cache.dfy ===
/**
 * The local identity cache the REST layer keeps of controller objects:
 * DataScript-set entries and VS entries with their dependent-key collections.
 *
 * The Go caches are keyed by `interface{}`; a `NamespaceName` key and a plain
 * string key are different keys, which `CacheKey` makes explicit.
 */
module AviCache {
  import opened Wrappers

  /** Cache key of a controller object: its tenant and name. */
  datatype NamespaceName = NamespaceName(namespace: string, name: string)

  /** A key of the DataScript cache: an object key, or any other string used as a key. */
  datatype CacheKey = ObjKey(nn: NamespaceName) | TraceKey(key: string)

  datatype DSCacheEntry = DSCacheEntry(name: string, tenant: string, uuid: string)

  datatype VsCacheEntry = VsCacheEntry(
    name: string,
    tenant: string,
    uuid: string,
    poolKeyCollection: seq<NamespaceName>,
    dsKeyCollection: seq<NamespaceName>)

  /** A VS cache value: a VS entry, or a value of some other type stored under the key. */
  datatype VsCacheValue = VsCacheObj(entry: VsCacheEntry) | ForeignCacheObj

  datatype ObjectCache = ObjectCache(dsCache: map<CacheKey, DSCacheEntry>, vsCache: map<NamespaceName, VsCacheValue>)

  predicate NoDuplicates<T(==)>(s: seq<T>)
  {
    forall i, j :: 0 <= i < j < |s| ==> s[i] != s[j]
  }

  /** Adds `k` to a key collection unless it is already there. */
  function AppendUnique(keys: seq<NamespaceName>, k: NamespaceName): (r: seq<NamespaceName>)
    ensures k in r
    ensures forall x :: x in r <==> x in keys || x == k
    ensures k in keys ==> r == keys
    ensures k !in keys ==> |r| == |keys| + 1 && r[..|keys|] == keys
    ensures NoDuplicates(keys) ==> NoDuplicates(r)
  {
    if k in keys then keys else keys + [k]
  }

  /** `r` is `keys` with its first occurrence of `k` taken out, the other keys in their order. */
  ghost predicate DropsFirst(keys: seq<NamespaceName>, k: NamespaceName, r: seq<NamespaceName>)
  {
    exists i :: 0 <= i < |keys| && keys[i] == k && k !in keys[..i] && r == keys[..i] + keys[i + 1..]
  }

  /** Drops the first occurrence of `k`; a collection without `k` is returned as it is. */
  function RemoveKey(keys: seq<NamespaceName>, k: NamespaceName): (r: seq<NamespaceName>)
    ensures multiset(r) == multiset(keys) - multiset{k}
    ensures k !in keys ==> r == keys
    ensures k in keys ==> DropsFirst(keys, k, r)
    ensures NoDuplicates(keys) ==> k !in r && NoDuplicates(r)
  {
    RemoveKeyFrom(keys, k, 0)
  }

  function RemoveKeyFrom(keys: seq<NamespaceName>, k: NamespaceName, from: nat): (r: seq<NamespaceName>)
    requires from <= |keys|
    requires k !in keys[..from]
    ensures multiset(r) == multiset(keys) - multiset{k}
    ensures k !in keys ==> r == keys
    ensures k in keys ==> DropsFirst(keys, k, r)
    ensures NoDuplicates(keys) ==> k !in r && NoDuplicates(r)
    decreases |keys| - from
  {
    if from == |keys| then
      assert keys[..from] == keys;
      keys
    else if keys[from] == k then
      DropAt(keys, from)
    else
      assert keys[..from + 1] == keys[..from] + [keys[from]];
      RemoveKeyFrom(keys, k, from + 1)
  }

  /** Drops the key at `i`, keeping the others in their order. */
  function DropAt(keys: seq<NamespaceName>, i: nat): (r: seq<NamespaceName>)
    requires i < |keys|
    ensures multiset(r) == multiset(keys) - multiset{keys[i]}
    ensures keys[i] !in keys[..i] ==> DropsFirst(keys, keys[i], r)
    ensures NoDuplicates(keys) ==> keys[i] !in r && NoDuplicates(r)
  {
    DropAtMultiset(keys, i);
    if NoDuplicates(keys) then DropAtDistinct(keys, i); keys[..i] + keys[i + 1..]
    else keys[..i] + keys[i + 1..]
  }

  lemma DropAtMultiset(keys: seq<NamespaceName>, i: nat)
    requires i < |keys|
    ensures multiset(keys[..i] + keys[i + 1..]) == multiset(keys) - multiset{keys[i]}
  {
    assert keys == keys[..i] + [keys[i]] + keys[i + 1..];
  }

  lemma DropAtDistinct(keys: seq<NamespaceName>, i: nat)
    requires i < |keys| && NoDuplicates(keys)
    ensures var r := keys[..i] + keys[i + 1..];
      keys[i] !in r && NoDuplicates(r)
  {
    var r := keys[..i] + keys[i + 1..];
    assert forall a :: 0 <= a < |r| ==> r[a] == keys[if a < i then a else a + 1];
  }

  /** Removing a key adds no key. */
  lemma RemoveKeySubset(keys: seq<NamespaceName>, k: NamespaceName)
    ensures forall x :: x in RemoveKey(keys, k) ==> x in keys
  {
    forall x | x in RemoveKey(keys, k)
      ensures x in keys
    {
      assert multiset(RemoveKey(keys, k))[x] > 0;
    }
  }

  /** The cached entry of the DataScript set `name` in `tenant`, if any. */
  function LookupDs(cache: ObjectCache, tenant: string, name: string): (r: Option<DSCacheEntry>)
    ensures r.Some? <==> ObjKey(NamespaceName(tenant, name)) in cache.dsCache
    ensures r.Some? ==> r.value == cache.dsCache[ObjKey(NamespaceName(tenant, name))]
  {
    var k := ObjKey(NamespaceName(tenant, name));
    if k in cache.dsCache then Some(cache.dsCache[k]) else None
  }

  /** Every DataScript key a VS entry depends on has a live DataScript entry. */
  ghost predicate DsLinksLive(cache: ObjectCache)
  {
    forall vk, k :: vk in cache.vsCache && cache.vsCache[vk].VsCacheObj? && k in cache.vsCache[vk].entry.dsKeyCollection ==>
      ObjKey(k) in cache.dsCache
  }

  /** No VS entry lists a DataScript key twice. */
  ghost predicate DsLinksUnique(cache: ObjectCache)
  {
    forall vk :: vk in cache.vsCache && cache.vsCache[vk].VsCacheObj? ==> NoDuplicates(cache.vsCache[vk].entry.dsKeyCollection)
  }
}

=== FILE: avi_nodes.dfy ===
/**
 * The configuration graph: node records and the model registry
 * (`AviObjectGraph`) that holds the top-level nodes in insertion order.
 *
 * A Go pointer to a registered node is modelled by the node's position in
 * the registry; nodes that hang only under a VS are held by value.
 */
module AviNodes {
  import opened Wrappers

  type Bytes = seq<bv8>

  /** A backend server as returned by the endpoint resolver. */
  datatype Server = Server(address: string)

  /** Owning ingress of a pool, for reverse lookup. */
  datatype ServiceMetadata = ServiceMetadata(ingressName: string, namespace: string)

  datatype PoolNode = PoolNode(
    name: string,
    ingressName: string,
    tenant: string,
    priorityLabel: string,
    port: int,
    serviceMetadata: ServiceMetadata,
    servers: seq<Server>)

  /** A pool-group member; SNI pool groups leave the priority label unset. */
  datatype PoolGroupMember = PoolGroupMember(poolRef: string, priorityLabel: Option<string>)

  datatype PoolGroupNode = PoolGroupNode(
    name: string,
    tenant: string,
    implicitPriorityLabel: bool,
    members: seq<PoolGroupMember>)

  datatype TlsKeyCertNode = TlsKeyCertNode(name: string, tenant: string, cert: Bytes, key: Bytes)

  /** One rule of an HTTP policy set: hosts, paths, match criterion, target pool group. */
  datatype HostPathPoolPG = HostPathPoolPG(host: seq<string>, path: seq<string>, matchCriteria: string, poolGroup: string)

  datatype HttpPolicySetNode = HttpPolicySetNode(name: string, tenant: string, hppMap: seq<HostPathPoolPG>)

  datatype DataScript = DataScript(script: string, evt: string)

  datatype HttpDataScriptNode = HttpDataScriptNode(
    name: string,
    tenant: string,
    dataScript: DataScript,
    poolGroupRefs: seq<string>)

  datatype PortHostProtocol = PortHostProtocol(port: int, protocol: string, enableSsl: bool)

  datatype VsNode = VsNode(
    name: string,
    tenant: string,
    eastWest: bool,
    sharedVs: bool,
    sniParent: bool,
    isSniChild: bool,
    vhParentName: string,
    portProto: seq<PortHostProtocol>,
    applicationProfile: string,
    networkProfile: string,
    vhDomainNames: seq<string>,
    poolRefs: seq<PoolNode>,
    poolGroupRefs: seq<PoolGroupNode>,
    sniNodes: seq<VsNode>,
    httpDsRefs: seq<HttpDataScriptNode>,
    httpPolicyRefs: seq<HttpPolicySetNode>,
    sslKeyCertRefs: seq<TlsKeyCertNode>)

  /** A VS with the given name and tenant and every other field at its zero value. */
  function NewVsNode(name: string, tenant: string): VsNode
  {
    VsNode(name, tenant, false, false, false, false, "", [], "", "", [], [], [], [], [], [], [])
  }

  datatype ModelNode =
    | VsModel(vs: VsNode)
    | PoolGroupModel(pg: PoolGroupNode)
    | DataScriptModel(ds: HttpDataScriptNode)

  datatype AviObjectGraph = AviObjectGraph(modelNodes: seq<ModelNode>)

  /** Registers a node; the registry keeps insertion order and does not deduplicate. */
  function AddModelNode(g: AviObjectGraph, n: ModelNode): AviObjectGraph
  {
    AviObjectGraph(g.modelNodes + [n])
  }

  /** Registry positions of the VS nodes, in order. */
  function VsPositions(nodes: seq<ModelNode>): (ps: seq<nat>)
    ensures forall k :: 0 <= k < |ps| ==> ps[k] < |nodes| && nodes[ps[k]].VsModel?
    ensures forall i :: 0 <= i < |nodes| && nodes[i].VsModel? ==> i in ps
    ensures forall k, l :: 0 <= k < l < |ps| ==> ps[k] < ps[l]
  {
    if |nodes| == 0 then []
    else
      var init := VsPositions(nodes[..|nodes| - 1]);
      init + (if nodes[|nodes| - 1].VsModel? then [|nodes| - 1] else [])
  }

  /** Registering a node adds its position to the VS positions exactly when it is a VS. */
  lemma VsPositionsAppend(nodes: seq<ModelNode>, n: ModelNode)
    ensures VsPositions(nodes + [n]) == VsPositions(nodes) + (if n.VsModel? then [|nodes|] else [])
  {
    assert (nodes + [n])[..|nodes|] == nodes;
  }

  /** Position of the first pool group named `name` at or after `from`. */
  function PoolGroupPositionFrom(nodes: seq<ModelNode>, name: string, from: nat): (r: Option<nat>)
    requires from <= |nodes|
    ensures r.Some? ==> from <= r.value < |nodes| && nodes[r.value].PoolGroupModel? && nodes[r.value].pg.name == name
    ensures r.Some? ==> forall j :: from <= j < r.value ==> !(nodes[j].PoolGroupModel? && nodes[j].pg.name == name)
    ensures r.None? ==> forall j :: from <= j < |nodes| ==> !(nodes[j].PoolGroupModel? && nodes[j].pg.name == name)
    decreases |nodes| - from
  {
    if from == |nodes| then None
    else if nodes[from].PoolGroupModel? && nodes[from].pg.name == name then Some(from)
    else PoolGroupPositionFrom(nodes, name, from + 1)
  }

  function PoolGroupPosition(nodes: seq<ModelNode>, name: string): Option<nat>
  {
    PoolGroupPositionFrom(nodes, name, 0)
  }

  /** Two registry entries of the same kind and, for pool groups, the same name. */
  predicate SameShape(a: ModelNode, b: ModelNode)
  {
    && a.VsModel? == b.VsModel?
    && a.PoolGroupModel? == b.PoolGroupModel?
    && (a.PoolGroupModel? ==> a.pg.name == b.pg.name)
  }

  predicate SameShapes(a: seq<ModelNode>, b: seq<ModelNode>)
  {
    |a| == |b| && forall i :: 0 <= i < |a| ==> SameShape(a[i], b[i])
  }

  /** Replacing registry entries by entries of the same shape leaves every lookup unchanged. */
  lemma {:induction false} SameShapesSameLookups(a: seq<ModelNode>, b: seq<ModelNode>, name: string)
    requires SameShapes(a, b)
    ensures VsPositions(a) == VsPositions(b)
    ensures PoolGroupPosition(a, name) == PoolGroupPosition(b, name)
    decreases |a|
  {
    if |a| > 0 {
      SameShapesSameLookups(a[..|a| - 1], b[..|b| - 1], name);
      assert SameShape(a[|a| - 1], b[|b| - 1]);
    }
    PoolGroupFromSameShapes(a, b, name, 0);
  }

  lemma {:induction false} PoolGroupFromSameShapes(a: seq<ModelNode>, b: seq<ModelNode>, name: string, from: nat)
    requires SameShapes(a, b) && from <= |a|
    ensures PoolGroupPositionFrom(a, name, from) == PoolGroupPositionFrom(b, name, from)
    decreases |a| - from
  {
    if from < |a| {
      assert SameShape(a[from], b[from]);
      PoolGroupFromSameShapes(a, b, name, from + 1);
    }
  }
}

=== FILE: config.dfy ===
/**
 * Constants the translator and the REST layer read from their utility
 * package. Their values live outside the modelled code, so they are carried
 * as an opaque record; only `TlsCertField` is defined by the translator itself.
 */
module Config {

  datatype Constants = Constants(
    adminNs: string,            // tenant every node is created in
    l7PgPrefix: string,         // suffix that turns a shared VS name into its pool-group name
    httpDsScript: string,       // template of the shared VS's HTTP DataScript
    dsEvtHttpReq: string,       // trigger event of that DataScript
    tlsKeyField: string,        // secret field holding the private key
    httpProtocol: string,       // protocol of both shared-VS listener ports
    secureAppProfile: string,   // default L7 application profile
    tcpNetworkProfile: string,  // default TCP network profile
    cloudConnector: string,     // `created_by` marker of REST objects
    ctrlVersion: string)        // controller API version sent with each operation

  /** Secret field holding the certificate. */
  const TlsCertField: string := "tls.crt"
}

=== FILE: datascript_rest.dfy ===
/**
 * The DataScript-set REST layer: builds the create/update and delete
 * operations for an HTTP DataScript node, and applies their results to the
 * local identity cache.
 *
 * The transport is not modelled: an operation is a descriptor, and its
 * outcome (error, response, parsed elements) arrives as data. The logging
 * `key` correlation id only matters where the cache delete uses it as a key.
 */
module DataScriptRest {
  import opened Wrappers
  import opened Strings
  import opened Config
  import opened AviNodes
  import opened AviCache

  datatype RestMethod = RestPost | RestPut | RestDelete

  datatype VsDataScript = VsDataScript(evt: string, script: string)

  datatype VsDataScriptSet = VsDataScriptSet(
    createdBy: string,
    datascript: seq<VsDataScript>,
    name: string,
    tenantRef: string,
    poolGroupRefs: seq<string>)

  /** Body of an operation: none, the object itself, or the generic creation envelope. */
  datatype RestObj = NoObj | DataScriptSetObj(dsSet: VsDataScriptSet) | MacroObj(modelName: string, data: VsDataScriptSet)

  /** A field of a response element: a string, or a value of another JSON type. */
  datatype JsonValue = JString(s: string) | JOther

  type RespElem = map<string, JsonValue>

  /**
   * A controller response, with the outcome of extracting its elements of
   * the operation's object type: `None` when extraction failed or found none.
   */
  datatype RestResponse = RestResponse(elements: Option<seq<RespElem>>)

  datatype RestOp = RestOp(
    path: string,
    verb: RestMethod,
    obj: RestObj,
    tenant: string,
    model: string,
    version: string,
    objName: string,
    err: Option<string>,
    response: Option<RestResponse>)

  datatype CacheResult = CacheResult(cache: ObjectCache, err: Option<string>)

  const DsModel: string := "VSDataScriptSet"
  const PoolGroupPlaceholder: string := "POOLGROUP"

  function DsObjectPath(uuid: string): string
  {
    "/api/vsdatascriptset/" + uuid
  }

  // ---------------------------------------------------------------------
  // Building operations
  // ---------------------------------------------------------------------

  /**
   * The create-or-update operation for a DataScript node, and the node as
   * the build leaves it: when the node names a pool group, the first
   * placeholder in its script is replaced by that name, in the node itself.
   * With a cache entry the operation is an update addressed by the cached
   * identifier; without one it is a create wrapped in the macro envelope.
   */
  function AviDSBuild(dsMeta: HttpDataScriptNode, cacheObj: Option<DSCacheEntry>, c: Constants): (r: (RestOp, HttpDataScriptNode))
    ensures var script := dsMeta.dataScript.script;
      && r.1 == dsMeta.(dataScript := dsMeta.dataScript.(script := r.1.dataScript.script))
      && (|dsMeta.poolGroupRefs| == 0 ==> r.1.dataScript.script == script)
      && (|dsMeta.poolGroupRefs| > 0 ==>
            && (forall i: nat :: FirstOccurrence(script, "POOLGROUP", i) ==>
                  r.1.dataScript.script == script[..i] + dsMeta.poolGroupRefs[0] + script[i + 9..])
            && ((forall i: nat :: !OccursAt(script, "POOLGROUP", i)) ==> r.1.dataScript.script == script))
    ensures var dsSet := VsDataScriptSet(c.cloudConnector, [VsDataScript(dsMeta.dataScript.evt, r.1.dataScript.script)],
                                       dsMeta.name, "/api/tenant/?name=" + dsMeta.tenant,
                                       if |dsMeta.poolGroupRefs| > 0 then ["/api/poolgroup/?name=" + dsMeta.poolGroupRefs[0]] else []);
      && r.0.tenant == dsMeta.tenant && r.0.model == "VSDataScriptSet" && r.0.version == c.ctrlVersion
      && r.0.err.None? && r.0.response.None?
      && (cacheObj.Some? ==>
            r.0.verb == RestPut && r.0.path == "/api/vsdatascriptset/" + cacheObj.value.uuid && r.0.obj == DataScriptSetObj(dsSet))
      && (cacheObj.None? ==>
            r.0.verb == RestPost && r.0.path == "/api/macro" && r.0.obj == MacroObj("VSDataScriptSet", dsSet))
  {
    var script := if |dsMeta.poolGroupRefs| > 0
      then ReplaceFirst(dsMeta.dataScript.script, PoolGroupPlaceholder, dsMeta.poolGroupRefs[0])
      else dsMeta.dataScript.script;
    var pgRefs := if |dsMeta.poolGroupRefs| > 0 then ["/api/poolgroup/?name=" + dsMeta.poolGroupRefs[0]] else [];
    var node := dsMeta.(dataScript := dsMeta.dataScript.(script := script));
    var dsSet := VsDataScriptSet(c.cloudConnector, [VsDataScript(dsMeta.dataScript.evt, script)],
      dsMeta.name, "/api/tenant/?name=" + dsMeta.tenant, pgRefs);
    var op := match cacheObj
      case Some(entry) =>
        RestOp(DsObjectPath(entry.uuid), RestPut, DataScriptSetObj(dsSet), dsMeta.tenant, DsModel, c.ctrlVersion, "", None, None)
      case None =>
        RestOp("/api/macro", RestPost, MacroObj(DsModel, dsSet), dsMeta.tenant, DsModel, c.ctrlVersion, "", None, None);
    (op, node)
  }

  /** The delete operation for the DataScript set with identifier `uuid`. */
  function AviDSDel(uuid: string, tenant: string, c: Constants): (r: RestOp)
    ensures r.verb == RestDelete && r.path == "/api/vsdatascriptset/" + uuid && r.obj == NoObj
    ensures r.tenant == tenant && r.model == "VSDataScriptSet" && r.version == c.ctrlVersion
    ensures r.err.None? && r.response.None?
  {
    RestOp(DsObjectPath(uuid), RestDelete, NoObj, tenant, DsModel, c.ctrlVersion, "", None, None)
  }

  /** An update and a delete built from the same cache entry address the same controller object. */
  lemma UpdateAndDeleteAgree(dsMeta: HttpDataScriptNode, entry: DSCacheEntry, c: Constants)
    ensures AviDSBuild(dsMeta, Some(entry), c).0.path == AviDSDel(entry.uuid, dsMeta.tenant, c).path
    ensures AviDSBuild(dsMeta, Some(entry), c).0.tenant == AviDSDel(entry.uuid, dsMeta.tenant, c).tenant
  {
  }

  // ---------------------------------------------------------------------
  // Applying results to the cache
  // ---------------------------------------------------------------------

  /** Name and identifier of a response element, when both are present as strings. */
  function ElementKey(e: RespElem): (r: Option<(string, string)>)
    ensures r.Some? <==> "name" in e && e["name"].JString? && "uuid" in e && e["uuid"].JString?
    ensures r.Some? ==> r.value == (e["name"].s, e["uuid"].s)
  {
    if "name" in e && e["name"].JString? && "uuid" in e && e["uuid"].JString? then Some((e["name"].s, e["uuid"].s)) else None
  }

  /**
   * Records `k` in the dependent collection of the VS entry `vsKey`: added
   * once to an existing entry, or a new entry holding only `k`; a value of
   * another type under `vsKey` is left alone.
   */
  function LinkDsKey(cache: ObjectCache, vsKey: NamespaceName, k: NamespaceName): (r: ObjectCache)
    ensures r.dsCache == cache.dsCache
    ensures r.vsCache.Keys == cache.vsCache.Keys + {vsKey}
    ensures forall vk :: vk in cache.vsCache && vk != vsKey ==> r.vsCache[vk] == cache.vsCache[vk]
    ensures vsKey !in cache.vsCache ==> r.vsCache[vsKey] == VsCacheObj(VsCacheEntry(vsKey.name, vsKey.namespace, "", [], [k]))
    ensures vsKey in cache.vsCache && cache.vsCache[vsKey].ForeignCacheObj? ==> r == cache
    ensures vsKey in cache.vsCache && cache.vsCache[vsKey].VsCacheObj? ==>
      var e := cache.vsCache[vsKey].entry;
      r.vsCache[vsKey] == VsCacheObj(e.(dsKeyCollection := AppendUnique(e.dsKeyCollection, k)))
  {
    if vsKey in cache.vsCache then
      match cache.vsCache[vsKey]
      case ForeignCacheObj => cache
      case VsCacheObj(e) =>
        cache.(vsCache := cache.vsCache[vsKey := VsCacheObj(e.(dsKeyCollection := AppendUnique(e.dsKeyCollection, k)))])
    else
      cache.(vsCache := cache.vsCache[vsKey := VsCacheObj(VsCacheEntry(vsKey.name, vsKey.namespace, "", [], [k]))])
  }

  /** Applies one response element: skipped without name or identifier, otherwise cached and linked. */
  function AddElement(cache: ObjectCache, e: RespElem, tenant: string, vsKey: NamespaceName): ObjectCache
  {
    match ElementKey(e)
    case None => cache
    case Some((name, uuid)) =>
      var k := NamespaceName(tenant, name);
      LinkDsKey(cache.(dsCache := cache.dsCache[ObjKey(k) := DSCacheEntry(name, tenant, uuid)]), vsKey, k)
  }

  /** Applies the response elements in order. */
  function AddElements(cache: ObjectCache, elems: seq<RespElem>, tenant: string, vsKey: NamespaceName): ObjectCache
    decreases |elems|
  {
    if |elems| == 0 then cache
    else AddElements(AddElement(cache, elems[0], tenant, vsKey), elems[1..], tenant, vsKey)
  }

  /**
   * Applies a create/update result. An operation error, a missing response
   * or a response without elements of this type is reported and leaves the
   * cache unchanged; otherwise each valid element is applied in order.
   */
  function AviDSCacheAdd(cache: ObjectCache, op: RestOp, vsKey: NamespaceName): (r: CacheResult)
    ensures r.err.Some? <==> op.err.Some? || op.response.None? || op.response.value.elements.None?
    ensures r.err.Some? ==> r.cache == cache
    ensures r.err.None? ==> r.cache == AddElements(cache, op.response.value.elements.value, op.tenant, vsKey)
  {
    if op.err.Some? || op.response.None? then CacheResult(cache, Some("Errored rest_op"))
    else match op.response.value.elements
      case None => CacheResult(cache, Some("datascriptset not found"))
      case Some(elems) => CacheResult(AddElements(cache, elems, op.tenant, vsKey), None)
  }

  /** Keys of the valid elements, in order. */
  function ValidKeys(elems: seq<RespElem>, tenant: string): seq<NamespaceName>
  {
    if |elems| == 0 then []
    else
      (match ElementKey(elems[0]) case None => [] case Some(nu) => [NamespaceName(tenant, nu.0)])
        + ValidKeys(elems[1..], tenant)
  }

  /** The entry the last valid element named `name` produces, if any element does. */
  function LastEntryFor(elems: seq<RespElem>, tenant: string, name: string): Option<DSCacheEntry>
    decreases |elems|
  {
    if |elems| == 0 then None
    else
      match LastEntryFor(elems[..|elems| - 1], tenant, name)
      case r =>
        match ElementKey(elems[|elems| - 1])
        case Some((n, u)) => if n == name then Some(DSCacheEntry(name, tenant, u)) else r
        case None => r
  }

  /**
   * After applying elements: each DataScript key holds the entry of the last
   * valid element that names it, and every other key is untouched; VS entries
   * other than `vsKey` are untouched.
   */
  lemma {:induction false} AddElementsEntries(cache: ObjectCache, elems: seq<RespElem>, tenant: string, vsKey: NamespaceName)
    ensures var r := AddElements(cache, elems, tenant, vsKey);
      && (forall name :: LastEntryFor(elems, tenant, name).Some? ==>
            && ObjKey(NamespaceName(tenant, name)) in r.dsCache
            && r.dsCache[ObjKey(NamespaceName(tenant, name))] == LastEntryFor(elems, tenant, name).value)
      && (forall k :: k in cache.dsCache && !(k.ObjKey? && k.nn.namespace == tenant && LastEntryFor(elems, tenant, k.nn.name).Some?) ==>
            k in r.dsCache && r.dsCache[k] == cache.dsCache[k])
      && (forall k :: k in r.dsCache ==> k in cache.dsCache || (k.ObjKey? && k.nn.namespace == tenant && LastEntryFor(elems, tenant, k.nn.name).Some?))
      && (forall vk :: vk in cache.vsCache && vk != vsKey ==> vk in r.vsCache && r.vsCache[vk] == cache.vsCache[vk])
      && r.vsCache.Keys <= cache.vsCache.Keys + {vsKey}
    decreases |elems|
  {
    if |elems| > 0 {
      var last := elems[|elems| - 1];
      var init := elems[..|elems| - 1];
      AddElementsSnoc(cache, init, last, tenant, vsKey);
      assert elems == init + [last];
      AddElementsEntries(cache, init, tenant, vsKey);
      AddElementEffect(AddElements(cache, init, tenant, vsKey), last, tenant, vsKey);
    }
  }

  /** One element: a valid one overwrites its own key's entry only; VS entries other than the owner stay. */
  lemma AddElementEffect(cache: ObjectCache, e: RespElem, tenant: string, vsKey: NamespaceName)
    ensures var r := AddElement(cache, e, tenant, vsKey);
      && (ElementKey(e).None? ==> r == cache)
      && (ElementKey(e).Some? ==>
            r.dsCache == cache.dsCache[ObjKey(NamespaceName(tenant, ElementKey(e).value.0)) := DSCacheEntry(ElementKey(e).value.0, tenant, ElementKey(e).value.1)])
      && (forall vk :: vk in cache.vsCache && vk != vsKey ==> vk in r.vsCache && r.vsCache[vk] == cache.vsCache[vk])
      && r.vsCache.Keys <= cache.vsCache.Keys + {vsKey}
  {
  }

  /** Applying elements one more at the end. */
  lemma {:induction false} AddElementsSnoc(cache: ObjectCache, elems: seq<RespElem>, e: RespElem, tenant: string, vsKey: NamespaceName)
    ensures AddElements(cache, elems + [e], tenant, vsKey) == AddElement(AddElements(cache, elems, tenant, vsKey), e, tenant, vsKey)
    decreases |elems|
  {
    if |elems| == 0 {
      assert elems + [e] == [e];
    } else {
      assert (elems + [e])[1..] == elems[1..] + [e];
      AddElementsSnoc(AddElement(cache, elems[0], tenant, vsKey), elems[1..], e, tenant, vsKey);
    }
  }

  /**
   * The dependent collection of the owning VS after a successful apply: it
   * holds every valid element's key, each once, after the keys it held
   * before; a value of another type under `vsKey` stays as it was.
   */
  lemma {:induction false} AddElementsLinks(cache: ObjectCache, elems: seq<RespElem>, tenant: string, vsKey: NamespaceName)
    requires vsKey in cache.vsCache ==> cache.vsCache[vsKey].VsCacheObj? && NoDuplicates(cache.vsCache[vsKey].entry.dsKeyCollection)
    ensures var r := AddElements(cache, elems, tenant, vsKey);
      var before := if vsKey in cache.vsCache then cache.vsCache[vsKey].entry.dsKeyCollection else [];
      (|ValidKeys(elems, tenant)| > 0 || vsKey in cache.vsCache) ==>
        && vsKey in r.vsCache && r.vsCache[vsKey].VsCacheObj?
        && NoDuplicates(r.vsCache[vsKey].entry.dsKeyCollection)
        && before <= r.vsCache[vsKey].entry.dsKeyCollection
        && (forall k :: k in r.vsCache[vsKey].entry.dsKeyCollection <==> k in before || k in ValidKeys(elems, tenant))
    decreases |elems|
  {
    if |elems| > 0 {
      var next := AddElement(cache, elems[0], tenant, vsKey);
      assert ValidKeys(elems, tenant) == (match ElementKey(elems[0]) case None => [] case Some(nu) => [NamespaceName(tenant, nu.0)])
        + ValidKeys(elems[1..], tenant);
      AddElementsLinks(next, elems[1..], tenant, vsKey);
    }
  }

  /** A value of another type under the owner's key keeps the whole VS cache as it was. */
  lemma {:induction false} AddElementsForeign(cache: ObjectCache, elems: seq<RespElem>, tenant: string, vsKey: NamespaceName)
    requires vsKey in cache.vsCache && cache.vsCache[vsKey].ForeignCacheObj?
    ensures AddElements(cache, elems, tenant, vsKey).vsCache == cache.vsCache
    decreases |elems|
  {
    if |elems| > 0 {
      AddElementsForeign(AddElement(cache, elems[0], tenant, vsKey), elems[1..], tenant, vsKey);
    }
  }

  /** Applying a create/update result keeps every dependent key live and every collection duplicate-free. */
  lemma {:induction false} AddElementsKeepsLinks(cache: ObjectCache, elems: seq<RespElem>, tenant: string, vsKey: NamespaceName)
    requires DsLinksLive(cache) && DsLinksUnique(cache)
    ensures DsLinksLive(AddElements(cache, elems, tenant, vsKey))
    ensures DsLinksUnique(AddElements(cache, elems, tenant, vsKey))
    decreases |elems|
  {
    if |elems| > 0 {
      var next := AddElement(cache, elems[0], tenant, vsKey);
      match ElementKey(elems[0]) {
        case None =>
        case Some((name, uuid)) =>
          var k := NamespaceName(tenant, name);
          var mid := cache.(dsCache := cache.dsCache[ObjKey(k) := DSCacheEntry(name, tenant, uuid)]);
          assert DsLinksLive(mid);
          assert next == LinkDsKey(mid, vsKey, k);
          forall vk, k' | vk in next.vsCache && next.vsCache[vk].VsCacheObj? && k' in next.vsCache[vk].entry.dsKeyCollection
            ensures ObjKey(k') in next.dsCache
          {
            if vk != vsKey {
              assert next.vsCache[vk] == mid.vsCache[vk];
            }
          }
      }
      AddElementsKeepsLinks(next, elems[1..], tenant, vsKey);
    }
  }

  /**
   * Applies a delete result, as written: the DataScript cache entry is
   * removed under the logging key `key`, not under the object's own key, and
   * the object's key is dropped from the owning VS's collection. No error is
   * reported in any case.
   */
  function AviDSCacheDel(cache: ObjectCache, op: RestOp, vsKey: NamespaceName, key: string): (r: CacheResult)
    ensures r.err.None?
    ensures r.cache.dsCache == cache.dsCache - {TraceKey(key)}
    ensures r.cache.vsCache.Keys == cache.vsCache.Keys
    ensures forall vk :: vk in cache.vsCache && (vk != vsKey || cache.vsCache[vk].ForeignCacheObj?) ==> r.cache.vsCache[vk] == cache.vsCache[vk]
    ensures vsKey in cache.vsCache && cache.vsCache[vsKey].VsCacheObj? ==>
      var e := cache.vsCache[vsKey].entry;
      && r.cache.vsCache[vsKey].VsCacheObj?
      && r.cache.vsCache[vsKey].entry == e.(dsKeyCollection := r.cache.vsCache[vsKey].entry.dsKeyCollection)
      && multiset(r.cache.vsCache[vsKey].entry.dsKeyCollection) == multiset(e.dsKeyCollection) - multiset{NamespaceName(op.tenant, op.objName)}
  {
    var dsKey := NamespaceName(op.tenant, op.objName);
    CacheResult(UnlinkDsKey(cache.(dsCache := cache.dsCache - {TraceKey(key)}), vsKey, dsKey), None)
  }

  /** Drops `dsKey` from the collection of the VS entry `vsKey`, if there is such an entry. */
  function UnlinkDsKey(cache: ObjectCache, vsKey: NamespaceName, dsKey: NamespaceName): (r: ObjectCache)
    ensures r.dsCache == cache.dsCache && r.vsCache.Keys == cache.vsCache.Keys
    ensures forall vk :: vk in cache.vsCache && (vk != vsKey || cache.vsCache[vk].ForeignCacheObj?) ==> r.vsCache[vk] == cache.vsCache[vk]
    ensures vsKey in cache.vsCache && cache.vsCache[vsKey].VsCacheObj? ==>
      r.vsCache[vsKey] == VsCacheObj(cache.vsCache[vsKey].entry.(dsKeyCollection := RemoveKey(cache.vsCache[vsKey].entry.dsKeyCollection, dsKey)))
  {
    if vsKey in cache.vsCache && cache.vsCache[vsKey].VsCacheObj? then
      var e := cache.vsCache[vsKey].entry;
      cache.(vsCache := cache.vsCache[vsKey := VsCacheObj(e.(dsKeyCollection := RemoveKey(e.dsKeyCollection, dsKey)))])
    else cache
  }

  /**
   * Applies a delete result as intended: the entry under the object's own
   * key is removed, and the key is dropped from the owning VS's collection.
   */
  function AviDSCacheDelCorrected(cache: ObjectCache, op: RestOp, vsKey: NamespaceName): (r: CacheResult)
    ensures r.err.None?
    ensures r.cache.dsCache == cache.dsCache - {ObjKey(NamespaceName(op.tenant, op.objName))}
    ensures r.cache.vsCache.Keys == cache.vsCache.Keys
    ensures forall vk :: vk in cache.vsCache && (vk != vsKey || cache.vsCache[vk].ForeignCacheObj?) ==> r.cache.vsCache[vk] == cache.vsCache[vk]
    ensures vsKey in cache.vsCache && cache.vsCache[vsKey].VsCacheObj? && NoDuplicates(cache.vsCache[vsKey].entry.dsKeyCollection) ==>
      && r.cache.vsCache[vsKey].VsCacheObj?
      && NamespaceName(op.tenant, op.objName) !in r.cache.vsCache[vsKey].entry.dsKeyCollection
  {
    var dsKey := NamespaceName(op.tenant, op.objName);
    CacheResult(UnlinkDsKey(cache.(dsCache := cache.dsCache - {ObjKey(dsKey)}), vsKey, dsKey), None)
  }

  /**
   * The as-written delete keeps every dependent key live and every
   * collection duplicate-free: it removes no object-keyed entry.
   */
  lemma DeleteKeepsLinks(cache: ObjectCache, op: RestOp, vsKey: NamespaceName, key: string)
    requires DsLinksLive(cache) && DsLinksUnique(cache)
    ensures DsLinksLive(AviDSCacheDel(cache, op, vsKey, key).cache)
    ensures DsLinksUnique(AviDSCacheDel(cache, op, vsKey, key).cache)
  {
    var r := AviDSCacheDel(cache, op, vsKey, key).cache;
    var dsKey := NamespaceName(op.tenant, op.objName);
    forall vk, k | vk in r.vsCache && r.vsCache[vk].VsCacheObj? && k in r.vsCache[vk].entry.dsKeyCollection
      ensures ObjKey(k) in r.dsCache
    {
      if vk == vsKey && cache.vsCache[vk].VsCacheObj? {
        var before := cache.vsCache[vk].entry.dsKeyCollection;
        RemoveKeySubset(before, dsKey);
        assert r.vsCache[vk].entry.dsKeyCollection == RemoveKey(before, dsKey);
      }
    }
  }

  /**
   * The corrected delete keeps every dependent key live, given that the
   * deleted DataScript belongs to the owning VS alone.
   */
  lemma DeleteCorrectedKeepsLinks(cache: ObjectCache, op: RestOp, vsKey: NamespaceName)
    requires DsLinksLive(cache) && DsLinksUnique(cache)
    requires forall vk :: vk in cache.vsCache && vk != vsKey && cache.vsCache[vk].VsCacheObj? ==>
      NamespaceName(op.tenant, op.objName) !in cache.vsCache[vk].entry.dsKeyCollection
    requires vsKey in cache.vsCache ==> cache.vsCache[vsKey].VsCacheObj?
    ensures DsLinksLive(AviDSCacheDelCorrected(cache, op, vsKey).cache)
    ensures DsLinksUnique(AviDSCacheDelCorrected(cache, op, vsKey).cache)
  {
    var dsKey := NamespaceName(op.tenant, op.objName);
    var r := AviDSCacheDelCorrected(cache, op, vsKey).cache;
    forall vk, k | vk in r.vsCache && r.vsCache[vk].VsCacheObj? && k in r.vsCache[vk].entry.dsKeyCollection
      ensures ObjKey(k) in r.dsCache
    {
      if vk == vsKey {
        var before := cache.vsCache[vk].entry.dsKeyCollection;
        RemoveKeySubset(before, dsKey);
      }
    }
    forall vk | vk in r.vsCache && r.vsCache[vk].VsCacheObj?
      ensures NoDuplicates(r.vsCache[vk].entry.dsKeyCollection)
    {
    }
  }

  // ---------------------------------------------------------------------
  // Build and apply together
  // ---------------------------------------------------------------------

  /** A response whose only element reports the node's name with identifier `uuid`. */
  function CreatedResponse(name: string, uuid: string): RestResponse
  {
    RestResponse(Some([map["name" := JString(name), "uuid" := JString(uuid)]]))
  }

  /**
   * Create then update: with no cache entry the node is built as a create;
   * once its successful result is applied, the next build of the same node
   * is an update addressed by the identifier the controller returned, and
   * the owning VS lists the node's key.
   */
  lemma CreateThenUpdate(cache: ObjectCache, dsMeta: HttpDataScriptNode, vsKey: NamespaceName, uuid: string, c: Constants)
    requires LookupDs(cache, dsMeta.tenant, dsMeta.name).None?
    requires vsKey in cache.vsCache ==> cache.vsCache[vsKey].VsCacheObj? && NoDuplicates(cache.vsCache[vsKey].entry.dsKeyCollection)
    ensures var built := AviDSBuild(dsMeta, LookupDs(cache, dsMeta.tenant, dsMeta.name), c);
      var applied := AviDSCacheAdd(cache, built.0.(response := Some(CreatedResponse(dsMeta.name, uuid))), vsKey);
      var rebuilt := AviDSBuild(built.1, LookupDs(applied.cache, dsMeta.tenant, dsMeta.name), c);
      && built.0.verb == RestPost
      && applied.err.None?
      && rebuilt.0.verb == RestPut
      && rebuilt.0.path == "/api/vsdatascriptset/" + uuid
      && vsKey in applied.cache.vsCache && applied.cache.vsCache[vsKey].VsCacheObj?
      && NamespaceName(dsMeta.tenant, dsMeta.name) in applied.cache.vsCache[vsKey].entry.dsKeyCollection
  {
    var built := AviDSBuild(dsMeta, None, c);
    var elems := CreatedResponse(dsMeta.name, uuid).elements.value;
    assert ElementKey(elems[0]) == Some((dsMeta.name, uuid));
    assert elems[1..] == [];
    AddElementsLinks(cache, elems, dsMeta.tenant, vsKey);
    assert ValidKeys(elems, dsMeta.tenant) == [NamespaceName(dsMeta.tenant, dsMeta.name)];
  }

  /**
   * Delete then rebuild, with the corrected delete: once the delete result is
   * applied, the next build of a node of that name is a create again.
   */
  lemma DeleteThenBuildCreates(cache: ObjectCache, dsMeta: HttpDataScriptNode, vsKey: NamespaceName, c: Constants)
    ensures var entry := LookupDs(cache, dsMeta.tenant, dsMeta.name);
      var del := if entry.Some? then AviDSDel(entry.value.uuid, dsMeta.tenant, c) else AviDSDel("", dsMeta.tenant, c);
      var applied := AviDSCacheDelCorrected(cache, del.(objName := dsMeta.name), vsKey);
      && LookupDs(applied.cache, dsMeta.tenant, dsMeta.name).None?
      && AviDSBuild(dsMeta, LookupDs(applied.cache, dsMeta.tenant, dsMeta.name), c).0.verb == RestPost
  {
  }
}

=== FILE: findings.dfy ===
/**
 * Concrete inputs on which the modelled code departs from what it evidently
 * intends, each next to the intended behaviour of the corrected member.
 */
module Findings {
  import opened Wrappers
  import opened Config
  import opened Ingress
  import opened HostPath
  import opened AviNodes
  import opened AviCache
  import opened DataScriptRest

  /** Two rules for different hosts, the second with an unset port. */
  function TwoHostSpec(tls: seq<IngressTls>): IngressSpec
  {
    IngressSpec([IngressRule("a.com", [HttpIngressPath("/x", "svcA", 80)]),
                 IngressRule("b.com", [HttpIngressPath("/y", "svcB", 0)])], tls)
  }

  /**
   * The second rule's host is filed with the first rule's binding as well:
   * `b.com` would route `/x` to `svcA`. The corrected parser gives `b.com`
   * only its own binding.
   */
  lemma CumulativeBindingsCounterexample()
    ensures var m := ParseHostPathForIngress("ing", TwoHostSpec([])).ingressHostMap;
      "b.com" in m && m["b.com"] == [IngressHostPathSvc("/x", "svcA", 80), IngressHostPathSvc("/y", "svcB", 80)]
    ensures var m := ParseHostPathCorrected("ing", TwoHostSpec([])).ingressHostMap;
      "b.com" in m && m["b.com"] == [IngressHostPathSvc("/y", "svcB", 80)]
  {
    var spec := TwoHostSpec([]);
    var r0 := spec.rules[..0];
    var r1 := spec.rules[..1];
    assert spec.rules[..2] == spec.rules;
    assert r1[..0] == r0;
    assert TlsHostSet(spec.tls) == {};
    assert RuleBindings(spec.rules[0]) == [IngressHostPathSvc("/x", "svcA", 80)];
    assert RuleBindings(spec.rules[1]) == [IngressHostPathSvc("/y", "svcB", 80)];
    assert Accumulated(r1) == [IngressHostPathSvc("/x", "svcA", 80)];
    assert Accumulated(spec.rules) == [IngressHostPathSvc("/x", "svcA", 80), IngressHostPathSvc("/y", "svcB", 80)];
    assert RuleLoop("ing", spec.rules)["b.com"] == Accumulated(spec.rules);
    assert "b.com" in RuleLoop("ing", spec.rules);
    assert OwnBindings("ing", r1, "b.com") == [];
    assert OwnBindings("ing", spec.rules, "b.com") == [IngressHostPathSvc("/y", "svcB", 80)];
  }

  /**
   * The first TLS entry lists only `a.com`, yet its grouping also holds
   * `b.com`, which the second entry claimed. With the corrected parser the
   * first grouping holds `a.com` alone.
   */
  lemma SharedTlsMapCounterexample()
    ensures var cfg := ParseHostPathForIngress("ing", TwoHostSpec([IngressTls(["a.com"], "sec1"), IngressTls(["b.com"], "sec2")]));
      && |cfg.tlsCollection| == 2
      && cfg.tlsCollection[0].secretName == "sec1"
      && "b.com" in cfg.tlsCollection[0].hosts
    ensures var cfg := ParseHostPathCorrected("ing", TwoHostSpec([IngressTls(["a.com"], "sec1"), IngressTls(["b.com"], "sec2")]));
      && |cfg.tlsCollection| == 2
      && cfg.tlsCollection[0].secretName == "sec1"
      && "b.com" !in cfg.tlsCollection[0].hosts
  {
    var spec := TwoHostSpec([IngressTls(["a.com"], "sec1"), IngressTls(["b.com"], "sec2")]);
    assert spec.rules[..2] == spec.rules;
    assert "b.com" in RuleLoop("ing", spec.rules);
    assert "b.com" in spec.tls[1].hosts;
    TlsHostsLeavePlainMap("ing", spec);
    assert Elems(spec.tls[0].hosts) == {"a.com"};
  }

  /** A cache holding the DataScript set `ds1` of tenant `admin` with identifier `u1`. */
  function CachedDs1(): ObjectCache
  {
    ObjectCache(map[ObjKey(NamespaceName("admin", "ds1")) := DSCacheEntry("ds1", "admin", "u1")], map[])
  }

  /**
   * Whatever the logging key, the as-written delete leaves the deleted
   * object's own cache entry in place.
   */
  lemma DeleteLeavesObjectEntry(cache: ObjectCache, op: RestOp, vsKey: NamespaceName, key: string)
    requires ObjKey(NamespaceName(op.tenant, op.objName)) in cache.dsCache
    ensures var r := AviDSCacheDel(cache, op, vsKey, key).cache;
      && LookupDs(r, op.tenant, op.objName).Some?
      && LookupDs(r, op.tenant, op.objName) == LookupDs(cache, op.tenant, op.objName)
  {
  }

  /**
   * After `ds1` is deleted and the delete result applied, rebuilding a node
   * named `ds1` still yields an update addressed to the deleted `u1`. With
   * the corrected delete the rebuild is a create.
   */
  lemma StaleDataScriptCounterexample(c: Constants)
    ensures var del := AviDSDel("u1", "admin", c).(objName := "ds1");
      var node := HttpDataScriptNode("ds1", "admin", DataScript("", ""), []);
      var asWritten := AviDSCacheDel(CachedDs1(), del, NamespaceName("admin", "vs"), "admin/ing").cache;
      var corrected := AviDSCacheDelCorrected(CachedDs1(), del, NamespaceName("admin", "vs")).cache;
      && AviDSBuild(node, LookupDs(asWritten, "admin", "ds1"), c).0.verb == RestPut
      && AviDSBuild(node, LookupDs(asWritten, "admin", "ds1"), c).0.path == "/api/vsdatascriptset/u1"
      && AviDSBuild(node, LookupDs(corrected, "admin", "ds1"), c).0.verb == RestPost
  {
    var del := AviDSDel("u1", "admin", c).(objName := "ds1");
    DeleteLeavesObjectEntry(CachedDs1(), del, NamespaceName("admin", "vs"), "admin/ing");
  }
}

=== FILE: host_path.dfy ===
/**
 * The ingress normaliser: turns the rules and TLS entries of one ingress
 * into a host -> path-binding map and a list of TLS groupings.
 *
 * The rule loop and the TLS loop are modelled as the state they leave
 * behind after each iteration. Two aliasing effects of the Go code are
 * kept on purpose: the binding list is one slice that grows across rules,
 * and one TLS host map is shared by every TLS grouping.
 */
module HostPath {
  import opened Ingress

  /** Port used when a backend gives none (or only a named one). */
  const DefaultServicePort: int := 80

  /** One path binding: path, backend service and its port. */
  datatype IngressHostPathSvc = IngressHostPathSvc(path: string, serviceName: string, port: int)

  type IngressHostMap = map<string, seq<IngressHostPathSvc>>

  /** One TLS grouping: the hosts moved out of the plain map, and the secret. */
  datatype TlsSettings = TlsSettings(hosts: IngressHostMap, secretName: string)

  datatype IngressConfig = IngressConfig(ingressHostMap: IngressHostMap, tlsCollection: seq<TlsSettings>)

  /** The key a rule is filed under: its host, or the ingress name when the host is empty. */
  function RuleHostName(ingName: string, rule: IngressRule): string
  {
    if rule.host == "" then ingName else rule.host
  }

  /** The bindings of one rule, in path order, with a zero port defaulted to 80. */
  function RuleBindings(rule: IngressRule): (bs: seq<IngressHostPathSvc>)
    ensures |bs| == |rule.paths|
    ensures forall i :: 0 <= i < |bs| ==>
      && bs[i].path == rule.paths[i].path
      && bs[i].serviceName == rule.paths[i].serviceName
      && bs[i].port == (if rule.paths[i].servicePort == 0 then DefaultServicePort else rule.paths[i].servicePort)
  {
    seq(|rule.paths|, i requires 0 <= i < |rule.paths| =>
      var p := rule.paths[i];
      IngressHostPathSvc(p.path, p.serviceName, if p.servicePort == 0 then DefaultServicePort else p.servicePort))
  }

  /** The bindings of all `rules`, in order: the slice the rule loop has grown after them. */
  function Accumulated(rules: seq<IngressRule>): seq<IngressHostPathSvc>
  {
    if |rules| == 0 then [] else Accumulated(rules[..|rules| - 1]) + RuleBindings(rules[|rules| - 1])
  }

  /**
   * The host map after the rule loop has processed `rules`: each iteration
   * files the whole slice accumulated so far under the rule's host.
   */
  function RuleLoop(ingName: string, rules: seq<IngressRule>): IngressHostMap
  {
    if |rules| == 0 then map[]
    else RuleLoop(ingName, rules[..|rules| - 1])[RuleHostName(ingName, rules[|rules| - 1]) := Accumulated(rules)]
  }

  function Elems(hosts: seq<string>): set<string>
  {
    set h | h in hosts
  }

  /** Every host named by some TLS entry. */
  function TlsHostSet(tls: seq<IngressTls>): set<string>
  {
    if |tls| == 0 then {} else Elems(tls[0].hosts) + TlsHostSet(tls[1..])
  }

  function Restrict(m: IngressHostMap, hosts: set<string>): IngressHostMap
  {
    map h | h in m && h in hosts :: m[h]
  }

  /** Inner TLS loop: moves each listed host that is still in `hostMap` into `tlsMap`. */
  function MoveTlsHosts(hosts: seq<string>, hostMap: IngressHostMap, tlsMap: IngressHostMap): (IngressHostMap, IngressHostMap)
  {
    if |hosts| == 0 then (hostMap, tlsMap)
    else if hosts[0] in hostMap then
      MoveTlsHosts(hosts[1..], hostMap - {hosts[0]}, tlsMap[hosts[0] := hostMap[hosts[0]]])
    else MoveTlsHosts(hosts[1..], hostMap, tlsMap)
  }

  /** Outer TLS loop: every entry moves hosts into the one shared `tlsMap`. */
  function TlsLoop(tls: seq<IngressTls>, hostMap: IngressHostMap, tlsMap: IngressHostMap): (IngressHostMap, IngressHostMap)
  {
    if |tls| == 0 then (hostMap, tlsMap)
    else
      var moved := MoveTlsHosts(tls[0].hosts, hostMap, tlsMap);
      TlsLoop(tls[1..], moved.0, moved.1)
  }

  /**
   * The parser. Every grouping holds the same map, because
   * `parseHostPathForIngress` assigns one map object to all of them.
   */
  function ParseHostPathForIngress(ingName: string, spec: IngressSpec): (cfg: IngressConfig)
    ensures cfg.ingressHostMap == RuleLoop(ingName, spec.rules) - TlsHostSet(spec.tls)
    ensures |cfg.tlsCollection| == |spec.tls|
    ensures forall i :: 0 <= i < |spec.tls| ==>
      cfg.tlsCollection[i] == TlsSettings(Restrict(RuleLoop(ingName, spec.rules), TlsHostSet(spec.tls)), spec.tls[i].secretName)
  {
    var hostMap := RuleLoop(ingName, spec.rules);
    TlsLoopEffect(spec.tls, hostMap, map[]);
    var split := TlsLoop(spec.tls, hostMap, map[]);
    assert map[] + Restrict(hostMap, TlsHostSet(spec.tls)) == Restrict(hostMap, TlsHostSet(spec.tls));
    IngressConfig(split.0, seq(|spec.tls|, i requires 0 <= i < |spec.tls| => TlsSettings(split.1, spec.tls[i].secretName)))
  }

  // ---------------------------------------------------------------------
  // Rule loop
  // ---------------------------------------------------------------------

  lemma {:induction false} RuleLoopKeys(ingName: string, rules: seq<IngressRule>)
    ensures forall h :: h in RuleLoop(ingName, rules) <==>
      exists j :: 0 <= j < |rules| && RuleHostName(ingName, rules[j]) == h
    decreases |rules|
  {
    if |rules| > 0 {
      var init := rules[..|rules| - 1];
      RuleLoopKeys(ingName, init);
      assert RuleLoop(ingName, rules) == RuleLoop(ingName, init)[RuleHostName(ingName, rules[|rules| - 1]) := Accumulated(rules)];
      forall h | h in RuleLoop(ingName, rules) && h != RuleHostName(ingName, rules[|rules| - 1])
        ensures exists j :: 0 <= j < |rules| && RuleHostName(ingName, rules[j]) == h
      {
        assert h in RuleLoop(ingName, init);
        var j :| 0 <= j < |init| && RuleHostName(ingName, init[j]) == h;
        assert rules[j] == init[j];
      }
      forall h | exists j :: 0 <= j < |rules| && RuleHostName(ingName, rules[j]) == h
        ensures h in RuleLoop(ingName, rules)
      {
        var j :| 0 <= j < |rules| && RuleHostName(ingName, rules[j]) == h;
        if j < |rules| - 1 {
          assert init[j] == rules[j];
        }
      }
    }
  }

  /**
   * A rule with an empty host is filed under the ingress name; any other
   * host is filed verbatim; and nothing else becomes a key.
   */
  lemma RuleHostKeying(ingName: string, rules: seq<IngressRule>)
    ensures forall j :: 0 <= j < |rules| && rules[j].host == "" ==> ingName in RuleLoop(ingName, rules)
    ensures forall j :: 0 <= j < |rules| && rules[j].host != "" ==> rules[j].host in RuleLoop(ingName, rules)
    ensures forall h :: h in RuleLoop(ingName, rules) ==>
      exists j :: 0 <= j < |rules| && ((rules[j].host == "" && h == ingName) || (rules[j].host != "" && rules[j].host == h))
  {
    RuleLoopKeys(ingName, rules);
    forall j | 0 <= j < |rules|
      ensures RuleHostName(ingName, rules[j]) in RuleLoop(ingName, rules)
    {
    }
    forall h | h in RuleLoop(ingName, rules)
      ensures exists j :: 0 <= j < |rules| && ((rules[j].host == "" && h == ingName) || (rules[j].host != "" && rules[j].host == h))
    {
      var j :| 0 <= j < |rules| && RuleHostName(ingName, rules[j]) == h;
      assert (rules[j].host == "" && h == ingName) || (rules[j].host != "" && rules[j].host == h);
    }
  }

  /** True when rule `n - 1` is the last rule filed under `h`. */
  predicate LastRuleFor(ingName: string, rules: seq<IngressRule>, h: string, n: int)
  {
    && 0 < n <= |rules|
    && RuleHostName(ingName, rules[n - 1]) == h
    && forall k :: n <= k < |rules| ==> RuleHostName(ingName, rules[k]) != h
  }

  lemma {:induction false} RuleLoopCumulativeAt(ingName: string, rules: seq<IngressRule>, h: string)
    requires h in RuleLoop(ingName, rules)
    ensures exists n :: LastRuleFor(ingName, rules, h, n) && RuleLoop(ingName, rules)[h] == Accumulated(rules[..n])
    decreases |rules|
  {
    var init := rules[..|rules| - 1];
    var last := RuleHostName(ingName, rules[|rules| - 1]);
    assert RuleLoop(ingName, rules) == RuleLoop(ingName, init)[last := Accumulated(rules)];
    if h == last {
      assert rules[..|rules|] == rules;
      assert LastRuleFor(ingName, rules, h, |rules|);
    } else {
      RuleLoopCumulativeAt(ingName, init, h);
      var n :| LastRuleFor(ingName, init, h, n) && RuleLoop(ingName, init)[h] == Accumulated(init[..n]);
      assert init[..n] == rules[..n];
      assert init[n - 1] == rules[n - 1];
      forall k | n <= k < |rules|
        ensures RuleHostName(ingName, rules[k]) != h
      {
        if k < |init| {
          assert init[k] == rules[k];
        }
      }
      assert LastRuleFor(ingName, rules, h, n);
    }
  }

  /**
   * The list filed under a host is the whole slice accumulated up to the
   * LAST rule naming that host -- bindings of earlier rules for other hosts
   * included.
   */
  lemma RuleLoopCumulative(ingName: string, rules: seq<IngressRule>)
    ensures forall h :: h in RuleLoop(ingName, rules) ==>
      exists n :: LastRuleFor(ingName, rules, h, n) && RuleLoop(ingName, rules)[h] == Accumulated(rules[..n])
  {
    forall h | h in RuleLoop(ingName, rules)
      ensures exists n :: LastRuleFor(ingName, rules, h, n) && RuleLoop(ingName, rules)[h] == Accumulated(rules[..n])
    {
      RuleLoopCumulativeAt(ingName, rules, h);
    }
  }

  // ---------------------------------------------------------------------
  // TLS loop
  // ---------------------------------------------------------------------

  lemma RestrictMovedHost(hostMap: IngressHostMap, tlsMap: IngressHostMap, h0: string, rest: set<string>)
    requires h0 in hostMap
    ensures tlsMap[h0 := hostMap[h0]] + Restrict(hostMap - {h0}, rest) == tlsMap + Restrict(hostMap, {h0} + rest)
  {
    var lhs := tlsMap[h0 := hostMap[h0]] + Restrict(hostMap - {h0}, rest);
    var rhs := tlsMap + Restrict(hostMap, {h0} + rest);
    assert lhs.Keys == rhs.Keys;
    forall k | k in lhs
      ensures lhs[k] == rhs[k]
    {
    }
  }

  lemma RestrictAbsentHost(hostMap: IngressHostMap, h0: string, rest: set<string>)
    requires h0 !in hostMap
    ensures Restrict(hostMap, rest) == Restrict(hostMap, {h0} + rest)
    ensures hostMap - rest == hostMap - ({h0} + rest)
  {
  }

  lemma {:induction false} MoveTlsHostsEffect(hosts: seq<string>, hostMap: IngressHostMap, tlsMap: IngressHostMap)
    ensures MoveTlsHosts(hosts, hostMap, tlsMap).0 == hostMap - Elems(hosts)
    ensures MoveTlsHosts(hosts, hostMap, tlsMap).1 == tlsMap + Restrict(hostMap, Elems(hosts))
    decreases |hosts|
  {
    if |hosts| == 0 {
      assert Restrict(hostMap, Elems(hosts)) == map[];
    } else {
      var h0 := hosts[0];
      var rest := hosts[1..];
      assert Elems(hosts) == {h0} + Elems(rest) by {
        assert hosts == [h0] + rest;
      }
      if h0 in hostMap {
        var hm := hostMap - {h0};
        var tm := tlsMap[h0 := hostMap[h0]];
        assert MoveTlsHosts(hosts, hostMap, tlsMap) == MoveTlsHosts(rest, hm, tm);
        MoveTlsHostsEffect(rest, hm, tm);
        assert hm - Elems(rest) == hostMap - Elems(hosts);
        RestrictMovedHost(hostMap, tlsMap, h0, Elems(rest));
      } else {
        assert MoveTlsHosts(hosts, hostMap, tlsMap) == MoveTlsHosts(rest, hostMap, tlsMap);
        MoveTlsHostsEffect(rest, hostMap, tlsMap);
        RestrictAbsentHost(hostMap, h0, Elems(rest));
      }
    }
  }

  lemma {:induction false} TlsLoopEffect(tls: seq<IngressTls>, hostMap: IngressHostMap, tlsMap: IngressHostMap)
    ensures TlsLoop(tls, hostMap, tlsMap).0 == hostMap - TlsHostSet(tls)
    ensures TlsLoop(tls, hostMap, tlsMap).1 == tlsMap + Restrict(hostMap, TlsHostSet(tls))
    decreases |tls|
  {
    if |tls| > 0 {
      var first := Elems(tls[0].hosts);
      MoveTlsHostsEffect(tls[0].hosts, hostMap, tlsMap);
      var hm := hostMap - first;
      var tm := tlsMap + Restrict(hostMap, first);
      TlsLoopEffect(tls[1..], hm, tm);
      assert TlsHostSet(tls) == first + TlsHostSet(tls[1..]);
      RestrictSplit(hostMap, tlsMap, first, TlsHostSet(tls[1..]));
    }
  }

  /** Moving the hosts of `a` and then those of `b` moves the hosts of `a + b`. */
  lemma RestrictSplit(hostMap: IngressHostMap, tlsMap: IngressHostMap, a: set<string>, b: set<string>)
    ensures (hostMap - a) - b == hostMap - (a + b)
    ensures (tlsMap + Restrict(hostMap, a)) + Restrict(hostMap - a, b) == tlsMap + Restrict(hostMap, a + b)
  {
    var lhs := (tlsMap + Restrict(hostMap, a)) + Restrict(hostMap - a, b);
    var rhs := tlsMap + Restrict(hostMap, a + b);
    assert lhs.Keys == rhs.Keys;
    forall k | k in lhs
      ensures lhs[k] == rhs[k]
    {
    }
  }

  lemma TlsHostSetMembers(tls: seq<IngressTls>)
    ensures forall h :: h in TlsHostSet(tls) <==> exists i :: 0 <= i < |tls| && h in tls[i].hosts
  {
    if |tls| > 0 {
      TlsHostSetMembers(tls[1..]);
      forall h | exists i :: 0 <= i < |tls| && h in tls[i].hosts
        ensures h in TlsHostSet(tls)
      {
        var i :| 0 <= i < |tls| && h in tls[i].hosts;
        if i > 0 {
          assert tls[1..][i - 1] == tls[i];
        }
      }
      forall h | h in TlsHostSet(tls[1..])
        ensures exists i :: 0 <= i < |tls| && h in tls[i].hosts
      {
        var i :| 0 <= i < |tls[1..]| && h in tls[1..][i].hosts;
        assert tls[1..][i] == tls[i + 1];
      }
    }
  }

  /**
   * Host exclusivity: a host listed by any TLS entry is absent from the plain
   * map; a listed host that was in the map is in every grouping, with its
   * bindings unchanged; a listed host that was not in the map appears nowhere;
   * an unlisted host keeps its plain bindings.
   */
  lemma TlsHostsLeavePlainMap(ingName: string, spec: IngressSpec)
    ensures var cfg := ParseHostPathForIngress(ingName, spec);
      var hostMap := RuleLoop(ingName, spec.rules);
      && (forall i, h :: 0 <= i < |spec.tls| && h in spec.tls[i].hosts ==> h !in cfg.ingressHostMap)
      && (forall i, h, g :: 0 <= i < |spec.tls| && h in spec.tls[i].hosts && h in hostMap && 0 <= g < |cfg.tlsCollection| ==>
            h in cfg.tlsCollection[g].hosts && cfg.tlsCollection[g].hosts[h] == hostMap[h])
      && (forall h, g :: 0 <= g < |cfg.tlsCollection| && h !in hostMap ==> h !in cfg.tlsCollection[g].hosts)
      && (forall h :: h in hostMap && h !in TlsHostSet(spec.tls) ==> h in cfg.ingressHostMap && cfg.ingressHostMap[h] == hostMap[h])
  {
    TlsHostSetMembers(spec.tls);
  }

  /**
   * All groupings carry one and the same host map, and together with the
   * plain map it partitions the keys the rule loop produced.
   */
  lemma TlsGroupingsShareOneMap(ingName: string, spec: IngressSpec)
    ensures var cfg := ParseHostPathForIngress(ingName, spec);
      && (forall i, j :: 0 <= i < |cfg.tlsCollection| && 0 <= j < |cfg.tlsCollection| ==>
            cfg.tlsCollection[i].hosts == cfg.tlsCollection[j].hosts)
      && (forall i :: 0 <= i < |cfg.tlsCollection| ==>
            && cfg.tlsCollection[i].secretName == spec.tls[i].secretName
            && cfg.tlsCollection[i].hosts.Keys !! cfg.ingressHostMap.Keys
            && cfg.tlsCollection[i].hosts.Keys + cfg.ingressHostMap.Keys == RuleLoop(ingName, spec.rules).Keys)
  {
  }

  // ---------------------------------------------------------------------
  // The parser as evidently intended (see the findings in README.md)
  // ---------------------------------------------------------------------

  /** The bindings of exactly the rules filed under `h`, in rule order. */
  function OwnBindings(ingName: string, rules: seq<IngressRule>, h: string): seq<IngressHostPathSvc>
  {
    if |rules| == 0 then []
    else
      OwnBindings(ingName, rules[..|rules| - 1], h)
        + (if RuleHostName(ingName, rules[|rules| - 1]) == h then RuleBindings(rules[|rules| - 1]) else [])
  }

  /** Host map with a fresh binding list per host instead of one shared slice. */
  function PerHostMap(ingName: string, rules: seq<IngressRule>): IngressHostMap
  {
    map h | h in RuleLoop(ingName, rules) :: OwnBindings(ingName, rules, h)
  }

  lemma {:induction false} OwnBindingsMembers(ingName: string, rules: seq<IngressRule>, h: string)
    ensures forall b :: b in OwnBindings(ingName, rules, h) <==>
      exists j :: 0 <= j < |rules| && RuleHostName(ingName, rules[j]) == h && b in RuleBindings(rules[j])
    decreases |rules|
  {
    if |rules| > 0 {
      var init := rules[..|rules| - 1];
      OwnBindingsMembers(ingName, init, h);
      forall b | b in OwnBindings(ingName, rules, h)
        ensures exists j :: 0 <= j < |rules| && RuleHostName(ingName, rules[j]) == h && b in RuleBindings(rules[j])
      {
        if b in OwnBindings(ingName, init, h) {
          var j :| 0 <= j < |init| && RuleHostName(ingName, init[j]) == h && b in RuleBindings(init[j]);
          assert rules[j] == init[j];
        }
      }
      forall b | exists j :: 0 <= j < |rules| && RuleHostName(ingName, rules[j]) == h && b in RuleBindings(rules[j])
        ensures b in OwnBindings(ingName, rules, h)
      {
        var j :| 0 <= j < |rules| && RuleHostName(ingName, rules[j]) == h && b in RuleBindings(rules[j]);
        if j < |rules| - 1 {
          assert init[j] == rules[j];
        }
      }
    }
  }

  /**
   * In the intended host map the hosts are the same as in the Go code, and a
   * host's list holds a binding exactly when some rule filed under that host has it.
   */
  lemma PerHostMapOwnBindings(ingName: string, rules: seq<IngressRule>)
    ensures PerHostMap(ingName, rules).Keys == RuleLoop(ingName, rules).Keys
    ensures forall h, b :: h in PerHostMap(ingName, rules) ==>
      (b in PerHostMap(ingName, rules)[h] <==>
        exists j :: 0 <= j < |rules| && RuleHostName(ingName, rules[j]) == h && b in RuleBindings(rules[j]))
  {
    forall h | h in PerHostMap(ingName, rules) {
      OwnBindingsMembers(ingName, rules, h);
    }
  }

  /** Intended TLS loop: each entry gets a fresh map holding only the hosts it moved. */
  function TlsLoopPerEntry(tls: seq<IngressTls>, hostMap: IngressHostMap): (IngressHostMap, seq<TlsSettings>)
  {
    if |tls| == 0 then (hostMap, [])
    else
      var moved := MoveTlsHosts(tls[0].hosts, hostMap, map[]);
      var rest := TlsLoopPerEntry(tls[1..], moved.0);
      (rest.0, [TlsSettings(moved.1, tls[0].secretName)] + rest.1)
  }

  /** Entry `i` is the first TLS entry listing `h`. */
  predicate FirstListing(tls: seq<IngressTls>, i: int, h: string)
  {
    0 <= i < |tls| && h in tls[i].hosts && forall j :: 0 <= j < i ==> h !in tls[j].hosts
  }

  /**
   * Each grouping holds exactly the hosts of the map whose first listing is
   * its own entry, with their bindings; the plain map loses every listed host.
   */
  lemma TlsLoopPerEntryEffect(tls: seq<IngressTls>, hostMap: IngressHostMap)
    ensures var r := TlsLoopPerEntry(tls, hostMap);
      && r.0 == hostMap - TlsHostSet(tls)
      && |r.1| == |tls|
      && (forall i :: 0 <= i < |tls| ==> r.1[i].secretName == tls[i].secretName)
      && (forall i :: 0 <= i < |tls| ==> r.1[i].hosts.Keys <= Elems(tls[i].hosts))
      && (forall i, h :: 0 <= i < |tls| && h in r.1[i].hosts ==> h in hostMap && r.1[i].hosts[h] == hostMap[h])
      && (forall i, j :: 0 <= i < j < |tls| ==> r.1[i].hosts.Keys !! r.1[j].hosts.Keys)
      && (forall i, h :: FirstListing(tls, i, h) && h in hostMap ==> h in r.1[i].hosts)
  {
    TlsLoopPerEntryShape(tls, hostMap);
    TlsLoopPerEntryHosts(tls, hostMap);
    TlsLoopPerEntryDisjoint(tls, hostMap);
    TlsLoopPerEntryComplete(tls, hostMap);
  }

  lemma {:induction false} TlsLoopPerEntryComplete(tls: seq<IngressTls>, hostMap: IngressHostMap)
    ensures var r := TlsLoopPerEntry(tls, hostMap);
      && |r.1| == |tls|
      && (forall i, h :: FirstListing(tls, i, h) && h in hostMap ==> h in r.1[i].hosts)
    decreases |tls|
  {
    if |tls| > 0 {
      MoveIntoFresh(tls[0].hosts, hostMap);
      var moved := MoveTlsHosts(tls[0].hosts, hostMap, map[]);
      TlsLoopPerEntryComplete(tls[1..], moved.0);
      var r := TlsLoopPerEntry(tls, hostMap);
      var rest := TlsLoopPerEntry(tls[1..], moved.0);
      assert r.1 == [TlsSettings(moved.1, tls[0].secretName)] + rest.1;
      forall i, h | FirstListing(tls, i, h) && h in hostMap
        ensures h in r.1[i].hosts
      {
        if i > 0 {
          assert h !in tls[0].hosts;
          assert h in moved.0;
          assert r.1[i] == rest.1[i - 1];
          forall j | 0 <= j < i - 1
            ensures h !in tls[1..][j].hosts
          {
            assert tls[1..][j] == tls[j + 1];
          }
          assert FirstListing(tls[1..], i - 1, h);
        }
      }
    }
  }

  /** One entry moves its listed hosts out of the map into a fresh grouping map. */
  lemma MoveIntoFresh(hosts: seq<string>, hostMap: IngressHostMap)
    ensures MoveTlsHosts(hosts, hostMap, map[]).0 == hostMap - Elems(hosts)
    ensures MoveTlsHosts(hosts, hostMap, map[]).1 == Restrict(hostMap, Elems(hosts))
  {
    MoveTlsHostsEffect(hosts, hostMap, map[]);
    assert map[] + Restrict(hostMap, Elems(hosts)) == Restrict(hostMap, Elems(hosts));
  }

  lemma {:induction false} TlsLoopPerEntryShape(tls: seq<IngressTls>, hostMap: IngressHostMap)
    ensures var r := TlsLoopPerEntry(tls, hostMap);
      && r.0 == hostMap - TlsHostSet(tls)
      && |r.1| == |tls|
      && (forall i :: 0 <= i < |tls| ==> r.1[i].secretName == tls[i].secretName)
    decreases |tls|
  {
    if |tls| > 0 {
      MoveIntoFresh(tls[0].hosts, hostMap);
      var moved := MoveTlsHosts(tls[0].hosts, hostMap, map[]);
      TlsLoopPerEntryShape(tls[1..], moved.0);
      var r := TlsLoopPerEntry(tls, hostMap);
      var rest := TlsLoopPerEntry(tls[1..], moved.0);
      assert r.1 == [TlsSettings(moved.1, tls[0].secretName)] + rest.1;
      assert TlsHostSet(tls) == Elems(tls[0].hosts) + TlsHostSet(tls[1..]);
      RestrictSplit(hostMap, map[], Elems(tls[0].hosts), TlsHostSet(tls[1..]));
      forall i | 0 < i < |tls|
        ensures r.1[i].secretName == tls[i].secretName
      {
        assert r.1[i] == rest.1[i - 1];
        assert tls[1..][i - 1] == tls[i];
      }
    }
  }

  lemma {:induction false} TlsLoopPerEntryHosts(tls: seq<IngressTls>, hostMap: IngressHostMap)
    ensures var r := TlsLoopPerEntry(tls, hostMap);
      && |r.1| == |tls|
      && (forall i :: 0 <= i < |tls| ==> r.1[i].hosts.Keys <= Elems(tls[i].hosts))
      && (forall i, h :: 0 <= i < |tls| && h in r.1[i].hosts ==> h in hostMap && r.1[i].hosts[h] == hostMap[h])
    decreases |tls|
  {
    if |tls| > 0 {
      MoveIntoFresh(tls[0].hosts, hostMap);
      var moved := MoveTlsHosts(tls[0].hosts, hostMap, map[]);
      TlsLoopPerEntryHosts(tls[1..], moved.0);
      var r := TlsLoopPerEntry(tls, hostMap);
      var rest := TlsLoopPerEntry(tls[1..], moved.0);
      assert r.1 == [TlsSettings(moved.1, tls[0].secretName)] + rest.1;
      forall i | 0 < i < |tls|
        ensures r.1[i].hosts.Keys <= Elems(tls[i].hosts)
        ensures forall h :: h in r.1[i].hosts ==> h in hostMap && r.1[i].hosts[h] == hostMap[h]
      {
        assert r.1[i] == rest.1[i - 1];
        assert tls[1..][i - 1] == tls[i];
      }
    }
  }

  lemma {:induction false} TlsLoopPerEntryDisjoint(tls: seq<IngressTls>, hostMap: IngressHostMap)
    ensures var r := TlsLoopPerEntry(tls, hostMap);
      && |r.1| == |tls|
      && (forall i, h :: 0 <= i < |tls| && h in r.1[i].hosts ==> h in hostMap)
      && (forall i, j :: 0 <= i < j < |tls| ==> r.1[i].hosts.Keys !! r.1[j].hosts.Keys)
    decreases |tls|
  {
    if |tls| > 0 {
      MoveIntoFresh(tls[0].hosts, hostMap);
      var moved := MoveTlsHosts(tls[0].hosts, hostMap, map[]);
      TlsLoopPerEntryDisjoint(tls[1..], moved.0);
      var r := TlsLoopPerEntry(tls, hostMap);
      var rest := TlsLoopPerEntry(tls[1..], moved.0);
      assert r.1 == [TlsSettings(moved.1, tls[0].secretName)] + rest.1;
      forall i, h | 0 <= i < |tls| && h in r.1[i].hosts
        ensures h in hostMap && (i > 0 ==> h in moved.0)
      {
        if i > 0 {
          assert r.1[i] == rest.1[i - 1];
        }
      }
      forall i, j | 0 <= i < j < |tls|
        ensures r.1[i].hosts.Keys !! r.1[j].hosts.Keys
      {
        assert r.1[j] == rest.1[j - 1];
        if i > 0 {
          assert r.1[i] == rest.1[i - 1];
        }
      }
    }
  }

  /** The parser with both aliasing effects removed. */
  function ParseHostPathCorrected(ingName: string, spec: IngressSpec): (cfg: IngressConfig)
    ensures cfg.ingressHostMap == PerHostMap(ingName, spec.rules) - TlsHostSet(spec.tls)
    ensures |cfg.tlsCollection| == |spec.tls|
    ensures forall i :: 0 <= i < |spec.tls| ==>
      && cfg.tlsCollection[i].secretName == spec.tls[i].secretName
      && cfg.tlsCollection[i].hosts.Keys <= Elems(spec.tls[i].hosts)
      && cfg.tlsCollection[i].hosts.Keys !! cfg.ingressHostMap.Keys
    ensures forall i, j :: 0 <= i < j < |spec.tls| ==>
      cfg.tlsCollection[i].hosts.Keys !! cfg.tlsCollection[j].hosts.Keys
    ensures forall i, h :: FirstListing(spec.tls, i, h) && h in RuleLoop(ingName, spec.rules) ==>
      h in cfg.tlsCollection[i].hosts && cfg.tlsCollection[i].hosts[h] == PerHostMap(ingName, spec.rules)[h]
    ensures forall i, h :: 0 <= i < |spec.tls| && h in cfg.tlsCollection[i].hosts ==>
      h in PerHostMap(ingName, spec.rules) && cfg.tlsCollection[i].hosts[h] == PerHostMap(ingName, spec.rules)[h]
  {
    var hostMap := PerHostMap(ingName, spec.rules);
    TlsLoopPerEntryEffect(spec.tls, hostMap);
    TlsHostSetMembers(spec.tls);
    var split := TlsLoopPerEntry(spec.tls, hostMap);
    IngressConfig(split.0, split.1)
  }
}

=== FILE: ingress.dfy ===
/** The slice of a Kubernetes `extensions/v1beta1` Ingress that the translator reads. */
module Ingress {

  /**
   * One HTTP path of a rule. `servicePort` is the integer half of the
   * backend's int-or-string port: zero when the port is unset or named.
   */
  datatype HttpIngressPath = HttpIngressPath(path: string, serviceName: string, servicePort: int)

  /** A rule: an optional host (empty string when absent) and its HTTP paths. */
  datatype IngressRule = IngressRule(host: string, paths: seq<HttpIngressPath>)

  /** A TLS entry: the hosts it covers and the secret holding their certificate. */
  datatype IngressTls = IngressTls(hosts: seq<string>, secretName: string)

  datatype IngressSpec = IngressSpec(rules: seq<IngressRule>, tls: seq<IngressTls>)

  /** Outcome of asking the ingress lister for one ingress by name. */
  datatype IngressLookup = Found(spec: IngressSpec) | NotFound | LookupFailed
}

=== FILE: l7_translator.dfy ===
/**
 * The L7 graph translator: builds the fixed skeleton of a shared virtual
 * service (VS) and, per ingress, rebuilds that VS's pools, SNI children and
 * pool-group membership.
 *
 * External collaborators are inputs: the ingress lister is an
 * `IngressLookup`, the secret client a map from secret name to its byte
 * fields, the endpoint resolver a map from service name to servers, and
 * Go's map iteration order is an explicit list of keys.
 *
 * A pass reads the ingress through `ParseHostPathForIngress`, as the Go code
 * does, so the parser's cumulative binding lists and its one shared TLS host
 * map reach the graph (see the findings in README.md).
 */
module L7Translator {
  import opened Wrappers
  import opened Config
  import opened Ingress
  import opened HostPath
  import opened AviNodes

  // ---------------------------------------------------------------------
  // Names
  // ---------------------------------------------------------------------

  /** Priority label of a plain pool: host and path, or the host alone for an empty path. */
  function PriorityLabel(host: string, path: string): string
  {
    if path != "" then host + path else host
  }

  function PlainPoolName(prio: string, ns: string, ingName: string): string
  {
    prio + "--" + ns + "--" + ingName
  }

  function PoolRef(poolName: string): string
  {
    "/api/pool?name=" + poolName
  }

  function SharedPoolGroupName(vsName: string, c: Constants): string
  {
    vsName + c.l7PgPrefix
  }

  function SniChildName(ingName: string, secretName: string): string
  {
    ingName + "--" + secretName
  }

  /** Name shared by the pool and the pool group of one SNI host/path. */
  function SniObjectName(ns: string, ingName: string, host: string, path: string): string
  {
    ns + "--" + ingName + "--" + host + "--" + path
  }

  function PolicySetName(ingName: string, ns: string, secretName: string): string
  {
    ingName + "--" + ns + "--" + secretName
  }

  function CertNodeName(ns: string, secretName: string): string
  {
    ns + "-" + secretName
  }

  const MatchEquals: string := "EQUALS"

  /** Endpoint resolver: service name to its servers, within the ingress ns. */
  type Endpoints = map<string, seq<Server>>

  /** Secret store: secret name to its data fields, within the ingress ns. */
  type Secrets = map<string, map<string, Bytes>>

  function ServersFor(endpoints: Endpoints, serviceName: string): seq<Server>
  {
    if serviceName in endpoints then endpoints[serviceName] else []
  }

  // ---------------------------------------------------------------------
  // Shared VS skeleton
  // ---------------------------------------------------------------------

  /** Result of a constructor: the registry, the (extended) VS and the node built. */
  datatype Constructed<T> = Constructed(graph: AviObjectGraph, vs: VsNode, node: T)

  /** Creates the shared VS's pool group, links it from the VS and registers it. */
  function ConstructShardVsPGNode(g: AviObjectGraph, vsName: string, vs: VsNode, c: Constants): (r: Constructed<PoolGroupNode>)
    ensures r.node.name == vsName + c.l7PgPrefix && r.node.tenant == c.adminNs
    ensures r.node.implicitPriorityLabel && r.node.members == []
    ensures r.vs == vs.(poolGroupRefs := vs.poolGroupRefs + [r.node])
    ensures r.graph.modelNodes == g.modelNodes + [PoolGroupModel(r.node)]
  {
    var pg := PoolGroupNode(SharedPoolGroupName(vsName, c), c.adminNs, true, []);
    Constructed(AddModelNode(g, PoolGroupModel(pg)), vs.(poolGroupRefs := vs.poolGroupRefs + [pg]), pg)
  }

  /** Creates the shared VS's HTTP DataScript, pointing at the shared pool group. */
  function ConstructHTTPDataScript(g: AviObjectGraph, vsName: string, vs: VsNode, c: Constants): (r: Constructed<HttpDataScriptNode>)
    ensures r.node.name == vsName + "-http-datascript" && r.node.tenant == c.adminNs
    ensures r.node.dataScript == DataScript(c.httpDsScript, c.dsEvtHttpReq)
    ensures r.node.poolGroupRefs == [vsName + c.l7PgPrefix]
    ensures r.vs == vs.(httpDsRefs := vs.httpDsRefs + [r.node])
    ensures r.graph.modelNodes == g.modelNodes + [DataScriptModel(r.node)]
  {
    var ds := HttpDataScriptNode(vsName + "-http-datascript", c.adminNs,
      DataScript(c.httpDsScript, c.dsEvtHttpReq), [SharedPoolGroupName(vsName, c)]);
    Constructed(AddModelNode(g, DataScriptModel(ds)), vs.(httpDsRefs := vs.httpDsRefs + [ds]), ds)
  }

  /**
   * Builds and registers the shared VS with its pool group and DataScript.
   * The VS is registered first and extended afterwards through its pointer,
   * so the registered entry is the completed VS.
   */
  function ConstructAviL7VsNode(g: AviObjectGraph, vsName: string, c: Constants): (r: Constructed<VsNode>)
    ensures r.node == r.vs
    ensures r.vs.name == vsName && r.vs.tenant == c.adminNs
    ensures r.vs.sharedVs && r.vs.sniParent && !r.vs.eastWest && !r.vs.isSniChild
    ensures r.vs.portProto == [PortHostProtocol(80, c.httpProtocol, false), PortHostProtocol(443, c.httpProtocol, true)]
    ensures r.vs.applicationProfile == c.secureAppProfile && r.vs.networkProfile == c.tcpNetworkProfile
    ensures |r.vs.poolGroupRefs| == 1 && |r.vs.httpDsRefs| == 1
    ensures r.vs.poolGroupRefs[0].name == SharedPoolGroupName(vsName, c) && r.vs.poolGroupRefs[0].members == []
    ensures r.vs.poolGroupRefs[0].tenant == c.adminNs && r.vs.poolGroupRefs[0].implicitPriorityLabel
    ensures r.vs.httpDsRefs[0].name == vsName + "-http-datascript" && r.vs.httpDsRefs[0].tenant == c.adminNs
    ensures r.vs.httpDsRefs[0].dataScript == DataScript(c.httpDsScript, c.dsEvtHttpReq)
    ensures r.vs.httpDsRefs[0].poolGroupRefs == [r.vs.poolGroupRefs[0].name]
    ensures r.vs.poolRefs == [] && r.vs.sniNodes == []
    ensures r.vs.(portProto := [], applicationProfile := "", networkProfile := "", sharedVs := false, sniParent := false,
                  poolGroupRefs := [], httpDsRefs := []) == NewVsNode(vsName, c.adminNs)
    ensures r.graph.modelNodes == g.modelNodes
      + [VsModel(r.vs), PoolGroupModel(r.vs.poolGroupRefs[0]), DataScriptModel(r.vs.httpDsRefs[0])]
  {
    var base := NewVsNode(vsName, c.adminNs).(
      sharedVs := true,
      portProto := [PortHostProtocol(80, c.httpProtocol, false), PortHostProtocol(443, c.httpProtocol, true)],
      applicationProfile := c.secureAppProfile,
      networkProfile := c.tcpNetworkProfile,
      sniParent := true);
    var registered := AddModelNode(g, VsModel(base));
    var withPg := ConstructShardVsPGNode(registered, vsName, base, c);
    var withDs := ConstructHTTPDataScript(withPg.graph, vsName, withPg.vs, c);
    var graph := AviObjectGraph(withDs.graph.modelNodes[|g.modelNodes| := VsModel(withDs.vs)]);
    assert graph.modelNodes == g.modelNodes + [VsModel(withDs.vs), PoolGroupModel(withPg.node), DataScriptModel(withDs.node)];
    Constructed(graph, withDs.vs, withDs.vs)
  }

  // ---------------------------------------------------------------------
  // Map iteration
  // ---------------------------------------------------------------------

  predicate DistinctHosts(order: seq<string>)
  {
    forall i, j :: 0 <= i < j < |order| ==> order[i] != order[j]
  }

  /** `order` lists every key of `m` exactly once: one possible Go iteration order. */
  predicate Enumerates(order: seq<string>, m: IngressHostMap)
  {
    && DistinctHosts(order)
    && (forall h :: h in m ==> h in order)
    && (forall i :: 0 <= i < |order| ==> order[i] in m)
  }

  /** The iteration orders one pass uses: plain hosts, then each TLS grouping's hosts. */
  datatype PassOrder = PassOrder(plainHosts: seq<string>, sniHosts: seq<seq<string>>)

  predicate ValidPassOrder(order: PassOrder, cfg: IngressConfig)
  {
    && Enumerates(order.plainHosts, cfg.ingressHostMap)
    && |order.sniHosts| == |cfg.tlsCollection|
    && forall i :: 0 <= i < |cfg.tlsCollection| ==> Enumerates(order.sniHosts[i], cfg.tlsCollection[i].hosts)
  }

  /**
   * One visit of the nested host/path loops: the host, the binding, and the
   * paths visited so far under that host (the policy rule's growing path list).
   */
  datatype Route = Route(host: string, binding: IngressHostPathSvc, pathsSoFar: seq<string>)

  function PathsOf(bs: seq<IngressHostPathSvc>): seq<string>
  {
    seq(|bs|, i requires 0 <= i < |bs| => bs[i].path)
  }

  function HostRoutes(host: string, bs: seq<IngressHostPathSvc>): seq<Route>
  {
    seq(|bs|, j requires 0 <= j < |bs| => Route(host, bs[j], PathsOf(bs[..j + 1])))
  }

  /** The visits of the nested loops over `m`, hosts taken in `order`. */
  function Routes(order: seq<string>, m: IngressHostMap): seq<Route>
    requires forall h :: h in order ==> h in m
  {
    if |order| == 0 then [] else HostRoutes(order[0], m[order[0]]) + Routes(order[1..], m)
  }

  /**
   * `r` is a visit of host `r.host` and one of its bindings, and its path
   * list is that host's paths up to and including the binding's own.
   */
  predicate RouteIn(r: Route, m: IngressHostMap)
  {
    && r.host in m && r.binding in m[r.host]
    && |r.pathsSoFar| > 0 && r.pathsSoFar[|r.pathsSoFar| - 1] == r.binding.path
    && r.pathsSoFar <= PathsOf(m[r.host])
  }

  lemma HostRoutesIn(h: string, m: IngressHostMap)
    requires h in m
    ensures forall j :: 0 <= j < |HostRoutes(h, m[h])| ==> HostRoutes(h, m[h])[j].host == h && RouteIn(HostRoutes(h, m[h])[j], m)
  {
    var bs := m[h];
    forall j | 0 <= j < |bs|
      ensures HostRoutes(h, bs)[j].host == h && RouteIn(HostRoutes(h, bs)[j], m)
    {
      assert PathsOf(bs[..j + 1]) == PathsOf(bs)[..j + 1];
    }
  }

  /** Every visit of the loops is a (host, binding) pair of the map, its host taken from the order. */
  lemma {:induction false} RoutesSound(order: seq<string>, m: IngressHostMap)
    requires forall h :: h in order ==> h in m
    ensures forall k :: 0 <= k < |Routes(order, m)| ==> Routes(order, m)[k].host in order && RouteIn(Routes(order, m)[k], m)
    decreases |order|
  {
    if |order| > 0 {
      var first := HostRoutes(order[0], m[order[0]]);
      var rest := Routes(order[1..], m);
      RoutesSound(order[1..], m);
      HostRoutesIn(order[0], m);
      var rs := Routes(order, m);
      assert rs == first + rest;
      forall k | |first| <= k < |rs|
        ensures rs[k].host in order && RouteIn(rs[k], m)
      {
        assert rs[k] == rest[k - |first|];
        assert rest[k - |first|].host in order[1..];
      }
    }
  }

  /** A (host, binding) pair of the map whose host is in the order is visited, at position `k`. */
  lemma {:induction false} RouteVisited(order: seq<string>, m: IngressHostMap, h: string, b: IngressHostPathSvc) returns (k: nat)
    requires forall h :: h in order ==> h in m
    requires h in order && b in m[h]
    ensures k < |Routes(order, m)| && Routes(order, m)[k].host == h && Routes(order, m)[k].binding == b
    decreases |order|
  {
    var h0 := order[0];
    var first := HostRoutes(h0, m[h0]);
    var rest := Routes(order[1..], m);
    assert Routes(order, m) == first + rest;
    if h == h0 {
      var j :| 0 <= j < |m[h0]| && m[h0][j] == b;
      k := j;
    } else {
      assert h in order[1..];
      var k' := RouteVisited(order[1..], m, h, b);
      k := |first| + k';
    }
  }

  /** The loops visit exactly the (host, binding) pairs of the map, whatever the order. */
  lemma RoutesCover(order: seq<string>, m: IngressHostMap)
    requires forall h :: h in order ==> h in m
    ensures forall k :: 0 <= k < |Routes(order, m)| ==> Routes(order, m)[k].host in order && RouteIn(Routes(order, m)[k], m)
    ensures forall h, b :: h in order && b in m[h] ==>
      exists k :: 0 <= k < |Routes(order, m)| && Routes(order, m)[k].host == h && Routes(order, m)[k].binding == b
  {
    RoutesSound(order, m);
    forall h, b | h in order && b in m[h]
      ensures exists k :: 0 <= k < |Routes(order, m)| && Routes(order, m)[k].host == h && Routes(order, m)[k].binding == b
    {
      var k := RouteVisited(order, m, h, b);
    }
  }

  // ---------------------------------------------------------------------
  // Plain pools
  // ---------------------------------------------------------------------

  function PlainPool(r: Route, ns: string, ingName: string, endpoints: Endpoints, c: Constants): PoolNode
  {
    var prio := PriorityLabel(r.host, r.binding.path);
    PoolNode(PlainPoolName(prio, ns, ingName), ingName, c.adminNs, prio, r.binding.port,
      ServiceMetadata(ingName, ns), ServersFor(endpoints, r.binding.serviceName))
  }

  function PlainPools(rs: seq<Route>, ns: string, ingName: string, endpoints: Endpoints, c: Constants): seq<PoolNode>
  {
    seq(|rs|, k requires 0 <= k < |rs| => PlainPool(rs[k], ns, ingName, endpoints, c))
  }

  /**
   * Finds the pools owned by `ingName` and detaches each from the VS: what is
   * left are the other ingresses' pools, in the order they had.
   */
  function DetachIngressPools(pools: seq<PoolNode>, ingName: string): (r: seq<PoolNode>)
    ensures |r| <= |pools|
  {
    if |pools| == 0 then []
    else
      var last := pools[|pools| - 1];
      DetachIngressPools(pools[..|pools| - 1], ingName) + (if last.ingressName != ingName then [last] else [])
  }

  /** A pool survives detaching exactly when it was attached and another ingress owns it. */
  lemma {:induction false} DetachMembers(pools: seq<PoolNode>, ingName: string)
    ensures forall p :: p in DetachIngressPools(pools, ingName) <==> p in pools && p.ingressName != ingName
    decreases |pools|
  {
    if |pools| > 0 {
      var init := pools[..|pools| - 1];
      DetachMembers(init, ingName);
      assert pools == init + [pools[|pools| - 1]];
    }
  }

  lemma {:induction false} DetachAppend(a: seq<PoolNode>, b: seq<PoolNode>, ingName: string)
    ensures DetachIngressPools(a + b, ingName) == DetachIngressPools(a, ingName) + DetachIngressPools(b, ingName)
    decreases |b|
  {
    if |b| == 0 {
      assert a + b == a;
    } else {
      var init, last := b[..|b| - 1], b[|b| - 1];
      var tail := if last.ingressName != ingName then [last] else [];
      assert (a + b)[..|a + b| - 1] == a + init;
      assert (a + b)[|a + b| - 1] == last;
      assert DetachIngressPools(a + b, ingName) == DetachIngressPools(a + init, ingName) + tail;
      assert DetachIngressPools(b, ingName) == DetachIngressPools(init, ingName) + tail;
      DetachAppend(a, init, ingName);
    }
  }

  lemma {:induction false} DetachKeepsForeign(pools: seq<PoolNode>, ingName: string)
    requires forall i :: 0 <= i < |pools| ==> pools[i].ingressName != ingName
    ensures DetachIngressPools(pools, ingName) == pools
    decreases |pools|
  {
    if |pools| > 0 {
      var init := pools[..|pools| - 1];
      assert forall i :: 0 <= i < |init| ==> init[i] == pools[i];
      DetachKeepsForeign(init, ingName);
      assert pools == init + [pools[|pools| - 1]];
    }
  }

  lemma {:induction false} DetachDropsOwned(pools: seq<PoolNode>, ingName: string)
    requires forall i :: 0 <= i < |pools| ==> pools[i].ingressName == ingName
    ensures DetachIngressPools(pools, ingName) == []
    decreases |pools|
  {
    if |pools| > 0 {
      var init := pools[..|pools| - 1];
      assert forall i :: 0 <= i < |init| ==> init[i] == pools[i];
      DetachDropsOwned(init, ingName);
    }
  }

  /** Detaching twice is detaching once. */
  lemma DetachIdempotent(pools: seq<PoolNode>, ingName: string)
    ensures DetachIngressPools(DetachIngressPools(pools, ingName), ingName) == DetachIngressPools(pools, ingName)
  {
    DetachMembers(pools, ingName);
    DetachKeepsForeign(DetachIngressPools(pools, ingName), ingName);
  }

  function PoolGroupMembers(pools: seq<PoolNode>): (ms: seq<PoolGroupMember>)
    ensures |ms| == |pools|
    ensures forall k :: 0 <= k < |pools| ==> ms[k] == PoolGroupMember(PoolRef(pools[k].name), Some(pools[k].priorityLabel))
  {
    seq(|pools|, k requires 0 <= k < |pools| => PoolGroupMember(PoolRef(pools[k].name), Some(pools[k].priorityLabel)))
  }

  // ---------------------------------------------------------------------
  // SNI children
  // ---------------------------------------------------------------------

  predicate CertAvailable(secrets: Secrets, secretName: string, c: Constants)
  {
    secretName in secrets && TlsCertField in secrets[secretName] && c.tlsKeyField in secrets[secretName]
  }

  /**
   * Reads the secret and, when it has both the certificate and the key field,
   * appends one cert node to the SNI node. Otherwise reports false and leaves
   * the node as it was.
   */
  function BuildTlsCertNode(tlsNode: VsNode, ns: string, secretName: string, secrets: Secrets, c: Constants): (r: (bool, VsNode))
    ensures r.0 <==> secretName in secrets && TlsCertField in secrets[secretName] && c.tlsKeyField in secrets[secretName]
    ensures !r.0 ==> r.1 == tlsNode
    ensures r.0 ==> r.1 == tlsNode.(sslKeyCertRefs := tlsNode.sslKeyCertRefs
      + [TlsKeyCertNode(ns + "-" + secretName, c.adminNs, secrets[secretName][TlsCertField], secrets[secretName][c.tlsKeyField])])
  {
    if secretName !in secrets then (false, tlsNode)
    else
      var data := secrets[secretName];
      if TlsCertField !in data then (false, tlsNode)
      else if c.tlsKeyField !in data then (false, tlsNode)
      else
        var cert := TlsKeyCertNode(CertNodeName(ns, secretName), c.adminNs, data[TlsCertField], data[c.tlsKeyField]);
        (true, tlsNode.(sslKeyCertRefs := tlsNode.sslKeyCertRefs + [cert]))
  }

  /** Per host and path one SNI pool, named after the host and path, with no owning ingress or label. */
  function SniPools(rs: seq<Route>, ns: string, ingName: string, endpoints: Endpoints, c: Constants): (ps: seq<PoolNode>)
    ensures |ps| == |rs|
    ensures forall k :: 0 <= k < |rs| ==>
      && ps[k].name == SniObjectName(ns, ingName, rs[k].host, rs[k].binding.path)
      && ps[k].tenant == c.adminNs
      && ps[k].servers == ServersFor(endpoints, rs[k].binding.serviceName)
  {
    seq(|rs|, k requires 0 <= k < |rs| =>
      PoolNode(SniObjectName(ns, ingName, rs[k].host, rs[k].binding.path), "", c.adminNs, "", 0,
        ServiceMetadata("", ""), ServersFor(endpoints, rs[k].binding.serviceName)))
  }

  /** Per host and path one pool group, of the pool's name, whose only member is that pool. */
  function SniPoolGroups(rs: seq<Route>, ns: string, ingName: string, c: Constants): (pgs: seq<PoolGroupNode>)
    ensures |pgs| == |rs|
    ensures forall k :: 0 <= k < |rs| ==>
      && pgs[k].name == SniObjectName(ns, ingName, rs[k].host, rs[k].binding.path)
      && pgs[k].members == [PoolGroupMember(PoolRef(pgs[k].name), None)]
      && pgs[k].tenant == c.adminNs
  {
    seq(|rs|, k requires 0 <= k < |rs| =>
      var name := SniObjectName(ns, ingName, rs[k].host, rs[k].binding.path);
      PoolGroupNode(name, c.adminNs, false, [PoolGroupMember(PoolRef(name), None)]))
  }

  /** The policy set of one SNI child: per host and path a rule sending it to its pool group. */
  function SniPolicySet(rs: seq<Route>, ns: string, ingName: string, secretName: string, c: Constants): (p: HttpPolicySetNode)
    ensures p.name == PolicySetName(ingName, ns, secretName) && p.tenant == c.adminNs && |p.hppMap| == |rs|
    ensures forall k :: 0 <= k < |rs| ==>
      p.hppMap[k] == HostPathPoolPG([rs[k].host], rs[k].pathsSoFar, MatchEquals, SniObjectName(ns, ingName, rs[k].host, rs[k].binding.path))
  {
    HttpPolicySetNode(PolicySetName(ingName, ns, secretName), c.adminNs,
      seq(|rs|, k requires 0 <= k < |rs| =>
        HostPathPoolPG([rs[k].host], rs[k].pathsSoFar, MatchEquals, SniObjectName(ns, ingName, rs[k].host, rs[k].binding.path))))
  }

  /**
   * Fills one SNI child: per host and path one pool and one pool group of the
   * same name, and one HTTP policy set holding a rule per host and path. The
   * VH domain list ends up naming the last host visited.
   */
  function BuildPolicyPGPoolsForSNI(tlsNode: VsNode, ns: string, ingName: string, hostpath: TlsSettings,
                                   secretName: string, hostOrder: seq<string>, endpoints: Endpoints, c: Constants): (r: VsNode)
    requires Enumerates(hostOrder, hostpath.hosts)
    ensures var rs := Routes(hostOrder, hostpath.hosts);
      && |r.poolRefs| == |tlsNode.poolRefs| + |rs|
      && |r.poolGroupRefs| == |tlsNode.poolGroupRefs| + |rs|
      && |r.httpPolicyRefs| == |tlsNode.httpPolicyRefs| + 1
      && r.poolRefs[..|tlsNode.poolRefs|] == tlsNode.poolRefs
      && r.poolGroupRefs[..|tlsNode.poolGroupRefs|] == tlsNode.poolGroupRefs
      && r.httpPolicyRefs[..|tlsNode.httpPolicyRefs|] == tlsNode.httpPolicyRefs
    ensures var rs := Routes(hostOrder, hostpath.hosts);
      var np := |tlsNode.poolRefs|;
      var ng := |tlsNode.poolGroupRefs|;
      var policy := r.httpPolicyRefs[|r.httpPolicyRefs| - 1];
      && policy.name == ingName + "--" + ns + "--" + secretName
      && policy.tenant == c.adminNs
      && |policy.hppMap| == |rs|
      && forall k :: 0 <= k < |rs| ==>
           && r.poolRefs[np + k].name == ns + "--" + ingName + "--" + rs[k].host + "--" + rs[k].binding.path
           && r.poolRefs[np + k].tenant == c.adminNs
           && r.poolRefs[np + k].servers == ServersFor(endpoints, rs[k].binding.serviceName)
           && r.poolGroupRefs[ng + k].tenant == c.adminNs
           && r.poolGroupRefs[ng + k].name == r.poolRefs[np + k].name
           && r.poolGroupRefs[ng + k].members == [PoolGroupMember("/api/pool?name=" + r.poolRefs[np + k].name, None)]
           && policy.hppMap[k].host == [rs[k].host]
           && policy.hppMap[k].path == rs[k].pathsSoFar
           && policy.hppMap[k].matchCriteria == MatchEquals
           && policy.hppMap[k].poolGroup == r.poolGroupRefs[ng + k].name
    ensures |hostOrder| > 0 ==> r.vhDomainNames == [hostOrder[|hostOrder| - 1]]
    ensures r.(poolRefs := tlsNode.poolRefs, poolGroupRefs := tlsNode.poolGroupRefs,
               httpPolicyRefs := tlsNode.httpPolicyRefs, vhDomainNames := tlsNode.vhDomainNames) == tlsNode
  {
    var rs := Routes(hostOrder, hostpath.hosts);
    tlsNode.(
      vhDomainNames := if |hostOrder| == 0 then tlsNode.vhDomainNames else [hostOrder[|hostOrder| - 1]],
      poolGroupRefs := tlsNode.poolGroupRefs + SniPoolGroups(rs, ns, ingName, c),
      poolRefs := tlsNode.poolRefs + SniPools(rs, ns, ingName, endpoints, c),
      httpPolicyRefs := tlsNode.httpPolicyRefs + [SniPolicySet(rs, ns, ingName, secretName, c)])
  }

  /** `name` is the SNI name of some (host, binding) pair of `m`. */
  ghost predicate SniNameIn(name: string, m: IngressHostMap, ns: string, ingName: string)
  {
    exists h, b :: h in m && b in m[h] && name == SniObjectName(ns, ingName, h, b.path)
  }

  /** Names cover a map's (host, binding) pairs when they are the SNI names of the map's visits. */
  lemma {:induction false} SniNamesCover(order: seq<string>, m: IngressHostMap, names: seq<string>, ns: string, ingName: string)
    requires Enumerates(order, m)
    requires |names| == |Routes(order, m)|
    requires forall k :: 0 <= k < |names| ==>
      names[k] == SniObjectName(ns, ingName, Routes(order, m)[k].host, Routes(order, m)[k].binding.path)
    ensures forall h, b :: h in m && b in m[h] ==> SniObjectName(ns, ingName, h, b.path) in names
    ensures forall k :: 0 <= k < |names| ==> SniNameIn(names[k], m, ns, ingName)
  {
    var rs := Routes(order, m);
    RoutesSound(order, m);
    forall h, b | h in m && b in m[h]
      ensures SniObjectName(ns, ingName, h, b.path) in names
    {
      var k := RouteVisited(order, m, h, b);
      assert names[k] == SniObjectName(ns, ingName, h, b.path);
    }
    forall k | 0 <= k < |names|
      ensures SniNameIn(names[k], m, ns, ingName)
    {
      var h, b := rs[k].host, rs[k].binding;
      assert RouteIn(rs[k], m);
      assert h in m && b in m[h] && names[k] == SniObjectName(ns, ingName, h, b.path);
    }
  }

  function PoolNames(ps: seq<PoolNode>): (names: seq<string>)
    ensures |names| == |ps| && forall k :: 0 <= k < |ps| ==> names[k] == ps[k].name
  {
    seq(|ps|, k requires 0 <= k < |ps| => ps[k].name)
  }

  /** The SNI pools of a grouping's visits are named after exactly its (host, binding) pairs. */
  lemma SniPoolNames(order: seq<string>, m: IngressHostMap, ns: string, ingName: string, endpoints: Endpoints, c: Constants)
    requires Enumerates(order, m)
    ensures var names := PoolNames(SniPools(Routes(order, m), ns, ingName, endpoints, c));
      && (forall h, b :: h in m && b in m[h] ==> SniObjectName(ns, ingName, h, b.path) in names)
      && (forall k :: 0 <= k < |names| ==> SniNameIn(names[k], m, ns, ingName))
  {
    SniNamesCover(order, m, PoolNames(SniPools(Routes(order, m), ns, ingName, endpoints, c)), ns, ingName);
  }

  /**
   * Every host/path of the grouping gets its SNI pool, and every new SNI pool
   * belongs to a host/path of the grouping, whatever the iteration order.
   */
  lemma SniPoolsCoverGrouping(tlsNode: VsNode, ns: string, ingName: string, hostpath: TlsSettings,
                              secretName: string, hostOrder: seq<string>, endpoints: Endpoints, c: Constants)
    requires Enumerates(hostOrder, hostpath.hosts)
    ensures var r := BuildPolicyPGPoolsForSNI(tlsNode, ns, ingName, hostpath, secretName, hostOrder, endpoints, c);
      |tlsNode.poolRefs| <= |r.poolRefs| &&
      var names := PoolNames(r.poolRefs[|tlsNode.poolRefs|..]);
      && (forall h, b :: h in hostpath.hosts && b in hostpath.hosts[h] ==> SniObjectName(ns, ingName, h, b.path) in names)
      && (forall k :: 0 <= k < |names| ==> SniNameIn(names[k], hostpath.hosts, ns, ingName))
  {
    var ps := SniPools(Routes(hostOrder, hostpath.hosts), ns, ingName, endpoints, c);
    SniPoolsAppended(tlsNode, ns, ingName, hostpath, secretName, hostOrder, endpoints, c);
    SniPoolNames(hostOrder, hostpath.hosts, ns, ingName, endpoints, c);
  }

  lemma SniPoolsAppended(tlsNode: VsNode, ns: string, ingName: string, hostpath: TlsSettings,
                         secretName: string, hostOrder: seq<string>, endpoints: Endpoints, c: Constants)
    requires Enumerates(hostOrder, hostpath.hosts)
    ensures var r := BuildPolicyPGPoolsForSNI(tlsNode, ns, ingName, hostpath, secretName, hostOrder, endpoints, c);
      |tlsNode.poolRefs| <= |r.poolRefs| &&
      r.poolRefs[|tlsNode.poolRefs|..] == SniPools(Routes(hostOrder, hostpath.hosts), ns, ingName, endpoints, c)
  {
    var r := BuildPolicyPGPoolsForSNI(tlsNode, ns, ingName, hostpath, secretName, hostOrder, endpoints, c);
    assert r.poolRefs == tlsNode.poolRefs + SniPools(Routes(hostOrder, hostpath.hosts), ns, ingName, endpoints, c);
  }

  /** A new SNI child of the shared VS for one TLS grouping. */
  function SniChildNode(parentName: string, ingName: string, secretName: string, c: Constants): VsNode
  {
    NewVsNode(SniChildName(ingName, secretName), c.adminNs).(vhParentName := parentName, isSniChild := true)
  }

  predicate SniOrdersFit(tls: seq<TlsSettings>, orders: seq<seq<string>>)
  {
    |orders| == |tls| && forall i :: 0 <= i < |tls| ==> Enumerates(orders[i], tls[i].hosts)
  }

  /** The SNI children one pass attaches: one per grouping whose secret is complete, in order. */
  function SniChildren(parentName: string, ns: string, ingName: string, tls: seq<TlsSettings>,
                       orders: seq<seq<string>>, secrets: Secrets, endpoints: Endpoints, c: Constants): seq<VsNode>
    requires SniOrdersFit(tls, orders)
    decreases |tls|
  {
    if |tls| == 0 then []
    else
      var secretName := tls[0].secretName;
      var cert := BuildTlsCertNode(SniChildNode(parentName, ingName, secretName, c), ns, secretName, secrets, c);
      (if cert.0 then [BuildPolicyPGPoolsForSNI(cert.1, ns, ingName, tls[0], secretName, orders[0], endpoints, c)] else [])
        + SniChildren(parentName, ns, ingName, tls[1..], orders[1..], secrets, endpoints, c)
  }

  /** The number of groupings whose secret has both the certificate and the key field. */
  function CertCount(secrets: Secrets, tls: seq<TlsSettings>, c: Constants): (n: nat)
    ensures n <= |tls|
  {
    if |tls| == 0 then 0
    else (if CertAvailable(secrets, tls[0].secretName, c) then 1 else 0) + CertCount(secrets, tls[1..], c)
  }

  /** `v` is the SNI child built for the grouping of secret `secretName`, whose certificate is available. */
  predicate ChildFor(v: VsNode, parentName: string, ns: string, ingName: string, secretName: string, secrets: Secrets, c: Constants)
  {
    && CertAvailable(secrets, secretName, c)
    && v.isSniChild && v.vhParentName == parentName && v.tenant == c.adminNs
    && v.name == ingName + "--" + secretName
    && |v.sslKeyCertRefs| == 1 && v.sslKeyCertRefs[0].name == ns + "-" + secretName
    && |v.httpPolicyRefs| == 1
  }

  ghost predicate ChildOfSomeGrouping(v: VsNode, parentName: string, ns: string, ingName: string, tls: seq<TlsSettings>, secrets: Secrets, c: Constants)
  {
    exists i :: 0 <= i < |tls| && ChildFor(v, parentName, ns, ingName, tls[i].secretName, secrets, c)
  }

  ghost predicate HasChildNamed(kids: seq<VsNode>, name: string)
  {
    exists v :: v in kids && v.name == name
  }

  /** One grouping: the cert step succeeds exactly when the certificate is available, and then yields its child. */
  lemma SniChildBuilt(parentName: string, ns: string, ingName: string, s: TlsSettings, order: seq<string>,
                      secrets: Secrets, endpoints: Endpoints, c: Constants)
    requires Enumerates(order, s.hosts)
    ensures var cert := BuildTlsCertNode(SniChildNode(parentName, ingName, s.secretName, c), ns, s.secretName, secrets, c);
      && (cert.0 <==> CertAvailable(secrets, s.secretName, c))
      && (cert.0 ==> ChildFor(BuildPolicyPGPoolsForSNI(cert.1, ns, ingName, s, s.secretName, order, endpoints, c),
                              parentName, ns, ingName, s.secretName, secrets, c))
  {
    var cert := BuildTlsCertNode(SniChildNode(parentName, ingName, s.secretName, c), ns, s.secretName, secrets, c);
    if cert.0 {
      var v := BuildPolicyPGPoolsForSNI(cert.1, ns, ingName, s, s.secretName, order, endpoints, c);
      assert v.sslKeyCertRefs == cert.1.sslKeyCertRefs;
    }
  }

  /**
   * A child is attached for a grouping exactly when its secret has both the
   * certificate and the key field; each attached child names the shared VS as
   * its parent and carries exactly one cert node and one policy set.
   */
  lemma SniChildrenAttached(parentName: string, ns: string, ingName: string, tls: seq<TlsSettings>,
                            orders: seq<seq<string>>, secrets: Secrets, endpoints: Endpoints, c: Constants)
    requires SniOrdersFit(tls, orders)
    ensures var kids := SniChildren(parentName, ns, ingName, tls, orders, secrets, endpoints, c);
      && |kids| == CertCount(secrets, tls, c) <= |tls|
      && (forall v :: v in kids ==> ChildOfSomeGrouping(v, parentName, ns, ingName, tls, secrets, c))
      && (forall i :: 0 <= i < |tls| && CertAvailable(secrets, tls[i].secretName, c) ==>
            HasChildNamed(kids, ingName + "--" + tls[i].secretName))
  {
    SniChildrenSound(parentName, ns, ingName, tls, orders, secrets, endpoints, c);
    SniChildrenComplete(parentName, ns, ingName, tls, orders, secrets, endpoints, c);
  }

  /** The children of the first grouping, followed by those of the rest. */
  lemma SniChildrenUnfold(parentName: string, ns: string, ingName: string, tls: seq<TlsSettings>,
                          orders: seq<seq<string>>, secrets: Secrets, endpoints: Endpoints, c: Constants)
    requires SniOrdersFit(tls, orders) && |tls| > 0
    ensures var cert := BuildTlsCertNode(SniChildNode(parentName, ingName, tls[0].secretName, c), ns, tls[0].secretName, secrets, c);
      var head := if cert.0 then [BuildPolicyPGPoolsForSNI(cert.1, ns, ingName, tls[0], tls[0].secretName, orders[0], endpoints, c)] else [];
      && SniChildren(parentName, ns, ingName, tls, orders, secrets, endpoints, c)
           == head + SniChildren(parentName, ns, ingName, tls[1..], orders[1..], secrets, endpoints, c)
      && (forall v :: v in head ==> ChildFor(v, parentName, ns, ingName, tls[0].secretName, secrets, c))
      && (CertAvailable(secrets, tls[0].secretName, c) ==> |head| == 1 && head[0].name == ingName + "--" + tls[0].secretName)
      && (!CertAvailable(secrets, tls[0].secretName, c) ==> head == [])
  {
    SniChildBuilt(parentName, ns, ingName, tls[0], orders[0], secrets, endpoints, c);
  }

  lemma {:induction false} SniChildrenSound(parentName: string, ns: string, ingName: string, tls: seq<TlsSettings>,
                                            orders: seq<seq<string>>, secrets: Secrets, endpoints: Endpoints, c: Constants)
    requires SniOrdersFit(tls, orders)
    ensures var kids := SniChildren(parentName, ns, ingName, tls, orders, secrets, endpoints, c);
      && |kids| == CertCount(secrets, tls, c) <= |tls|
      && (forall v :: v in kids ==> ChildOfSomeGrouping(v, parentName, ns, ingName, tls, secrets, c))
    decreases |tls|
  {
    if |tls| > 0 {
      SniChildrenSound(parentName, ns, ingName, tls[1..], orders[1..], secrets, endpoints, c);
      SniChildrenUnfold(parentName, ns, ingName, tls, orders, secrets, endpoints, c);
      var kids := SniChildren(parentName, ns, ingName, tls, orders, secrets, endpoints, c);
      var rest := SniChildren(parentName, ns, ingName, tls[1..], orders[1..], secrets, endpoints, c);
      forall v | v in kids
        ensures ChildOfSomeGrouping(v, parentName, ns, ingName, tls, secrets, c)
      {
        if v !in rest {
          assert ChildFor(v, parentName, ns, ingName, tls[0].secretName, secrets, c);
        } else {
          var i :| 0 <= i < |tls[1..]| && ChildFor(v, parentName, ns, ingName, tls[1..][i].secretName, secrets, c);
          assert tls[1..][i] == tls[i + 1];
        }
      }
    }
  }

  lemma {:induction false} SniChildrenComplete(parentName: string, ns: string, ingName: string, tls: seq<TlsSettings>,
                                               orders: seq<seq<string>>, secrets: Secrets, endpoints: Endpoints, c: Constants)
    requires SniOrdersFit(tls, orders)
    ensures var kids := SniChildren(parentName, ns, ingName, tls, orders, secrets, endpoints, c);
      forall i :: 0 <= i < |tls| && CertAvailable(secrets, tls[i].secretName, c) ==>
        HasChildNamed(kids, ingName + "--" + tls[i].secretName)
    decreases |tls|
  {
    if |tls| > 0 {
      SniChildrenComplete(parentName, ns, ingName, tls[1..], orders[1..], secrets, endpoints, c);
      SniChildrenUnfold(parentName, ns, ingName, tls, orders, secrets, endpoints, c);
      var kids := SniChildren(parentName, ns, ingName, tls, orders, secrets, endpoints, c);
      var rest := SniChildren(parentName, ns, ingName, tls[1..], orders[1..], secrets, endpoints, c);
      forall i | 0 <= i < |tls| && CertAvailable(secrets, tls[i].secretName, c)
        ensures HasChildNamed(kids, ingName + "--" + tls[i].secretName)
      {
        if i == 0 {
          assert kids[0].name == ingName + "--" + tls[0].secretName;
        } else {
          assert tls[1..][i - 1] == tls[i];
          var v :| v in rest && v.name == ingName + "--" + tls[i].secretName;
          assert v in kids;
        }
      }
    }
  }

  // ---------------------------------------------------------------------
  // One pass over the shared VS
  // ---------------------------------------------------------------------

  /**
   * The pool and SNI part of a pass. A missing ingress detaches its pools; a
   * failed lookup leaves the VS alone; a found ingress detaches its pools and
   * rebuilds them, and appends its SNI children to the ones already there.
   */
  function PassPools(vs: VsNode, ns: string, ingName: string, lookup: IngressLookup, order: PassOrder,
                     secrets: Secrets, endpoints: Endpoints, c: Constants): (r: VsNode)
    requires lookup.Found? ==> ValidPassOrder(order, ParseHostPathForIngress(ingName, lookup.spec))
    ensures r.(poolRefs := vs.poolRefs, sniNodes := vs.sniNodes) == vs
  {
    match lookup
    case LookupFailed => vs
    case NotFound => vs.(poolRefs := DetachIngressPools(vs.poolRefs, ingName))
    case Found(spec) =>
      var cfg := ParseHostPathForIngress(ingName, spec);
      vs.(poolRefs := DetachIngressPools(vs.poolRefs, ingName)
            + PlainPools(Routes(order.plainHosts, cfg.ingressHostMap), ns, ingName, endpoints, c),
          sniNodes := vs.sniNodes + SniChildren(vs.name, ns, ingName, cfg.tlsCollection, order.sniHosts, secrets, endpoints, c))
  }

  /** Rewrites the members of every pool group named `name` (the shared group is one object seen from two places). */
  function ResetAliasedMembers(pgs: seq<PoolGroupNode>, name: string, members: seq<PoolGroupMember>): (r: seq<PoolGroupNode>)
    ensures |r| == |pgs|
    ensures forall k :: 0 <= k < |pgs| ==> r[k] == if pgs[k].name == name then pgs[k].(members := members) else pgs[k]
  {
    seq(|pgs|, k requires 0 <= k < |pgs| => if pgs[k].name == name then pgs[k].(members := members) else pgs[k])
  }

  /**
   * What a pass needs: with exactly one VS in the registry the shared pool
   * group must exist (the Go code dereferences it), and a found ingress comes
   * with an iteration order for each map the pass walks.
   */
  predicate BuildL7Ready(g: AviObjectGraph, vsName: string, ingName: string, lookup: IngressLookup, order: PassOrder, c: Constants)
  {
    |VsPositions(g.modelNodes)| == 1 ==>
      && PoolGroupPosition(g.modelNodes, SharedPoolGroupName(vsName, c)).Some?
      && (lookup.Found? ==> ValidPassOrder(order, ParseHostPathForIngress(ingName, lookup.spec)))
  }

  /** The shared VS after a pass: `PassPools`, then the shared pool group's regenerated members written into its list. */
  function PassVs(vs0: VsNode, pgName: string, ns: string, ingName: string, lookup: IngressLookup, order: PassOrder,
                  secrets: Secrets, endpoints: Endpoints, c: Constants): (r: VsNode)
    requires lookup.Found? ==> ValidPassOrder(order, ParseHostPathForIngress(ingName, lookup.spec))
    ensures var vs := PassPools(vs0, ns, ingName, lookup, order, secrets, endpoints, c);
      && r.poolRefs == vs.poolRefs && r.sniNodes == vs.sniNodes
      && r.poolGroupRefs == ResetAliasedMembers(vs0.poolGroupRefs, pgName, PoolGroupMembers(vs.poolRefs))
    ensures r.(poolRefs := vs0.poolRefs, sniNodes := vs0.sniNodes, poolGroupRefs := vs0.poolGroupRefs) == vs0
  {
    var vs := PassPools(vs0, ns, ingName, lookup, order, secrets, endpoints, c);
    vs.(poolGroupRefs := ResetAliasedMembers(vs.poolGroupRefs, pgName, PoolGroupMembers(vs.poolRefs)))
  }

  /** The registry after a pass: the VS at `vi` and the shared pool group at `pi` updated, every other entry kept. */
  function PassNodes(nodes: seq<ModelNode>, vi: nat, pi: nat, pgName: string, ns: string, ingName: string, lookup: IngressLookup,
                     order: PassOrder, secrets: Secrets, endpoints: Endpoints, c: Constants): (r: seq<ModelNode>)
    requires vi < |nodes| && pi < |nodes| && nodes[vi].VsModel? && nodes[pi].PoolGroupModel? && nodes[pi].pg.name == pgName
    requires lookup.Found? ==> ValidPassOrder(order, ParseHostPathForIngress(ingName, lookup.spec))
    ensures SameShapes(nodes, r)
    ensures r[vi] == VsModel(PassVs(nodes[vi].vs, pgName, ns, ingName, lookup, order, secrets, endpoints, c))
    ensures r[pi] == PoolGroupModel(nodes[pi].pg.(members := PoolGroupMembers(r[vi].vs.poolRefs)))
    ensures forall j :: 0 <= j < |nodes| && j != vi && j != pi ==> r[j] == nodes[j]
  {
    var vs := PassVs(nodes[vi].vs, pgName, ns, ingName, lookup, order, secrets, endpoints, c);
    var r := ReplaceTwo(nodes, vi, VsModel(vs), pi, PoolGroupModel(nodes[pi].pg.(members := PoolGroupMembers(vs.poolRefs))));
    assert SameShape(nodes[vi], r[vi]) && SameShape(nodes[pi], r[pi]);
    r
  }

  /** The registry with the entries at `i` and `j` replaced and every other entry kept. */
  function ReplaceTwo(nodes: seq<ModelNode>, i: nat, x: ModelNode, j: nat, y: ModelNode): (r: seq<ModelNode>)
    requires i < |nodes| && j < |nodes| && i != j
    ensures |r| == |nodes| && r[i] == x && r[j] == y
    ensures forall k :: 0 <= k < |nodes| && k != i && k != j ==> r[k] == nodes[k]
  {
    nodes[i := x][j := y]
  }

  function SharedVs(g: AviObjectGraph): VsNode
    requires |VsPositions(g.modelNodes)| == 1
  {
    g.modelNodes[VsPositions(g.modelNodes)[0]].vs
  }

  function SharedPoolGroup(g: AviObjectGraph, name: string): PoolGroupNode
    requires PoolGroupPosition(g.modelNodes, name).Some?
  {
    g.modelNodes[PoolGroupPosition(g.modelNodes, name).value].pg
  }

  /**
   * One reconciliation pass of `ingName` into the shared VS `vsName`. With
   * other than exactly one VS in the registry nothing changes. Otherwise the
   * pools and SNI children are updated (see `PassPools`) and the shared pool
   * group's members are regenerated from the VS's pool list.
   */
  function BuildL7VSGraph(g: AviObjectGraph, vsName: string, ns: string, ingName: string, lookup: IngressLookup,
                          order: PassOrder, secrets: Secrets, endpoints: Endpoints, c: Constants): (r: AviObjectGraph)
    requires BuildL7Ready(g, vsName, ingName, lookup, order, c)
    ensures |VsPositions(g.modelNodes)| != 1 ==> r == g
    ensures SameShapes(g.modelNodes, r.modelNodes)
    ensures VsPositions(r.modelNodes) == VsPositions(g.modelNodes)
    ensures PoolGroupPosition(r.modelNodes, SharedPoolGroupName(vsName, c)) == PoolGroupPosition(g.modelNodes, SharedPoolGroupName(vsName, c))
    ensures |VsPositions(g.modelNodes)| == 1 ==>
      var pgName := SharedPoolGroupName(vsName, c);
      var vi := VsPositions(g.modelNodes)[0];
      var pi := PoolGroupPosition(g.modelNodes, pgName).value;
      var pools := r.modelNodes[vi].vs.poolRefs;
      var members := r.modelNodes[pi].pg.members;
      && r.modelNodes[vi].VsModel? && r.modelNodes[pi].PoolGroupModel?
      && |members| == |pools|
      && (forall k :: 0 <= k < |pools| ==>
            members[k] == PoolGroupMember("/api/pool?name=" + pools[k].name, Some(pools[k].priorityLabel)))
      && r.modelNodes[pi].pg == g.modelNodes[pi].pg.(members := members)
      && r.modelNodes[vi].vs.(poolRefs := g.modelNodes[vi].vs.poolRefs, sniNodes := g.modelNodes[vi].vs.sniNodes,
                              poolGroupRefs := g.modelNodes[vi].vs.poolGroupRefs) == g.modelNodes[vi].vs
      && (forall j :: 0 <= j < |g.modelNodes| && j != vi && j != pi ==> r.modelNodes[j] == g.modelNodes[j])
  {
    var positions := VsPositions(g.modelNodes);
    if |positions| != 1 then g
    else
      var pgName := SharedPoolGroupName(vsName, c);
      var vi := positions[0];
      var pi := PoolGroupPosition(g.modelNodes, pgName).value;
      var nodes := PassNodes(g.modelNodes, vi, pi, pgName, ns, ingName, lookup, order, secrets, endpoints, c);
      SameShapesSameLookups(g.modelNodes, nodes, pgName);
      AviObjectGraph(nodes)
  }

  /** The shared VS and pool group after a pass, in terms of `PassPools`. */
  lemma BuildL7VSGraphEffect(g: AviObjectGraph, vsName: string, ns: string, ingName: string, lookup: IngressLookup,
                             order: PassOrder, secrets: Secrets, endpoints: Endpoints, c: Constants)
    requires BuildL7Ready(g, vsName, ingName, lookup, order, c)
    requires |VsPositions(g.modelNodes)| == 1
    ensures var r := BuildL7VSGraph(g, vsName, ns, ingName, lookup, order, secrets, endpoints, c);
      var pgName := SharedPoolGroupName(vsName, c);
      var vs := PassPools(SharedVs(g), ns, ingName, lookup, order, secrets, endpoints, c);
      && VsPositions(r.modelNodes) == VsPositions(g.modelNodes)
      && PoolGroupPosition(r.modelNodes, pgName) == PoolGroupPosition(g.modelNodes, pgName)
      && SharedVs(r).poolRefs == vs.poolRefs
      && SharedVs(r).sniNodes == vs.sniNodes
      && SharedVs(r).name == SharedVs(g).name
      && SharedVs(r).(poolRefs := SharedVs(g).poolRefs, sniNodes := SharedVs(g).sniNodes,
                      poolGroupRefs := SharedVs(g).poolGroupRefs) == SharedVs(g)
      && SharedPoolGroup(r, pgName) == SharedPoolGroup(g, pgName).(members := PoolGroupMembers(vs.poolRefs))
      && (forall j :: 0 <= j < |g.modelNodes| && j != VsPositions(g.modelNodes)[0] && j != PoolGroupPosition(g.modelNodes, pgName).value
            ==> r.modelNodes[j] == g.modelNodes[j])
      && |SharedVs(r).poolGroupRefs| == |vs.poolGroupRefs|
      && (forall k :: 0 <= k < |vs.poolGroupRefs| ==>
            if vs.poolGroupRefs[k].name == pgName
            then SharedVs(r).poolGroupRefs[k] == vs.poolGroupRefs[k].(members := SharedPoolGroup(r, pgName).members)
            else SharedVs(r).poolGroupRefs[k] == vs.poolGroupRefs[k])
  {
    var r := BuildL7VSGraph(g, vsName, ns, ingName, lookup, order, secrets, endpoints, c);
    SameShapesSameLookups(g.modelNodes, r.modelNodes, SharedPoolGroupName(vsName, c));
  }

  /**
   * `p` is the plain pool of some (host, binding) pair of `m`: labelled with
   * the host and path, named from the label, the namespace and the ingress,
   * listening on the binding's port and serving the endpoints of the binding's
   * service.
   */
  ghost predicate PlainPoolOf(p: PoolNode, m: IngressHostMap, ns: string, ingName: string, endpoints: Endpoints)
  {
    exists h, b :: h in m && b in m[h]
      && p.priorityLabel == (if b.path != "" then h + b.path else h)
      && p.name == p.priorityLabel + "--" + ns + "--" + ingName
      && p.port == b.port
      && p.servers == ServersFor(endpoints, b.serviceName)
  }

  ghost predicate HasPlainPool(ps: seq<PoolNode>, h: string, b: IngressHostPathSvc)
  {
    exists k :: 0 <= k < |ps| && ps[k].priorityLabel == PriorityLabel(h, b.path) && ps[k].port == b.port
  }

  /** The plain pools of one pass: owned by the ingress, and one per (host, binding) pair of the map. */
  lemma PlainPoolsCover(order: seq<string>, m: IngressHostMap, ns: string, ingName: string, endpoints: Endpoints, c: Constants)
    requires Enumerates(order, m)
    ensures var ps := PlainPools(Routes(order, m), ns, ingName, endpoints, c);
      && (forall k :: 0 <= k < |ps| ==>
            && ps[k].ingressName == ingName && ps[k].tenant == c.adminNs
            && ps[k].serviceMetadata == ServiceMetadata(ingName, ns)
            && PlainPoolOf(ps[k], m, ns, ingName, endpoints))
      && (forall h, b :: h in m && b in m[h] ==> HasPlainPool(ps, h, b))
  {
    PlainPoolsSound(order, m, ns, ingName, endpoints, c);
    PlainPoolsComplete(order, m, ns, ingName, endpoints, c);
  }

  lemma PlainPoolsSound(order: seq<string>, m: IngressHostMap, ns: string, ingName: string, endpoints: Endpoints, c: Constants)
    requires Enumerates(order, m)
    ensures var ps := PlainPools(Routes(order, m), ns, ingName, endpoints, c);
      forall k :: 0 <= k < |ps| ==> PlainPoolOf(ps[k], m, ns, ingName, endpoints)
  {
    var rs := Routes(order, m);
    var ps := PlainPools(rs, ns, ingName, endpoints, c);
    RoutesSound(order, m);
    forall k | 0 <= k < |ps|
      ensures PlainPoolOf(ps[k], m, ns, ingName, endpoints)
    {
      assert RouteIn(rs[k], m);
      var h, b := rs[k].host, rs[k].binding;
      assert ps[k] == PlainPool(rs[k], ns, ingName, endpoints, c);
      assert h in m && b in m[h] && ps[k].priorityLabel == PriorityLabel(h, b.path);
    }
  }

  lemma PlainPoolsComplete(order: seq<string>, m: IngressHostMap, ns: string, ingName: string, endpoints: Endpoints, c: Constants)
    requires Enumerates(order, m)
    ensures var ps := PlainPools(Routes(order, m), ns, ingName, endpoints, c);
      forall h, b :: h in m && b in m[h] ==> HasPlainPool(ps, h, b)
  {
    var rs := Routes(order, m);
    var ps := PlainPools(rs, ns, ingName, endpoints, c);
    forall h, b | h in m && b in m[h]
      ensures HasPlainPool(ps, h, b)
    {
      var k := RouteVisited(order, m, h, b);
      assert ps[k] == PlainPool(rs[k], ns, ingName, endpoints, c);
    }
  }

  /**
   * A pass for a found ingress: other ingresses' pools are kept in order,
   * followed by the ingress's rebuilt plain pools, one per host/path of its
   * rules that no TLS grouping claims. SNI children are appended after the
   * existing ones.
   */
  lemma BuildL7VSGraphFound(g: AviObjectGraph, vsName: string, ns: string, ingName: string, spec: IngressSpec,
                            order: PassOrder, secrets: Secrets, endpoints: Endpoints, c: Constants)
    requires BuildL7Ready(g, vsName, ingName, Found(spec), order, c)
    requires |VsPositions(g.modelNodes)| == 1
    ensures var r := BuildL7VSGraph(g, vsName, ns, ingName, Found(spec), order, secrets, endpoints, c);
      var cfg := ParseHostPathForIngress(ingName, spec);
      var kept := DetachIngressPools(SharedVs(g).poolRefs, ingName);
      var pools := SharedVs(r).poolRefs;
      && |kept| <= |pools|
      && pools[..|kept|] == kept
      && |pools| - |kept| == |Routes(order.plainHosts, cfg.ingressHostMap)|
      && (forall p :: p in kept <==> p in SharedVs(g).poolRefs && p.ingressName != ingName)
      && (forall k :: |kept| <= k < |pools| ==>
            && pools[k].ingressName == ingName && pools[k].tenant == c.adminNs
            && pools[k].serviceMetadata == ServiceMetadata(ingName, ns)
            && PlainPoolOf(pools[k], cfg.ingressHostMap, ns, ingName, endpoints))
      && (forall h, b :: h in cfg.ingressHostMap && b in cfg.ingressHostMap[h] ==> HasPlainPool(pools[|kept|..], h, b))
      && SharedVs(r).sniNodes == SharedVs(g).sniNodes
           + SniChildren(SharedVs(g).name, ns, ingName, cfg.tlsCollection, order.sniHosts, secrets, endpoints, c)
  {
    var cfg := ParseHostPathForIngress(ingName, spec);
    FoundPassPools(g, vsName, ns, ingName, spec, order, secrets, endpoints, c);
    RebuiltPools(SharedVs(g).poolRefs, order.plainHosts, cfg.ingressHostMap, ns, ingName, endpoints, c);
  }

  /** Kept pools followed by the rebuilt plain pools: the kept ones in front, then one plain pool per visit. */
  lemma RebuiltPools(prior: seq<PoolNode>, order: seq<string>, m: IngressHostMap, ns: string, ingName: string,
                     endpoints: Endpoints, c: Constants)
    requires Enumerates(order, m)
    ensures var kept := DetachIngressPools(prior, ingName);
      var pools := kept + PlainPools(Routes(order, m), ns, ingName, endpoints, c);
      && |kept| <= |pools|
      && pools[..|kept|] == kept
      && |pools| - |kept| == |Routes(order, m)|
      && (forall p :: p in kept <==> p in prior && p.ingressName != ingName)
      && (forall k :: |kept| <= k < |pools| ==>
            && pools[k].ingressName == ingName && pools[k].tenant == c.adminNs
            && pools[k].serviceMetadata == ServiceMetadata(ingName, ns)
            && PlainPoolOf(pools[k], m, ns, ingName, endpoints))
      && (forall h, b :: h in m && b in m[h] ==> HasPlainPool(pools[|kept|..], h, b))
  {
    var kept := DetachIngressPools(prior, ingName);
    var ps := PlainPools(Routes(order, m), ns, ingName, endpoints, c);
    DetachMembers(prior, ingName);
    PlainPoolsCover(order, m, ns, ingName, endpoints, c);
    var pools := kept + ps;
    assert pools[|kept|..] == ps;
    forall k | |kept| <= k < |pools|
      ensures pools[k] == ps[k - |kept|]
    {
    }
  }

  /** A found ingress's pass, in terms of its parts: kept pools, then rebuilt pools; old children, then new ones. */
  lemma FoundPassPools(g: AviObjectGraph, vsName: string, ns: string, ingName: string, spec: IngressSpec,
                       order: PassOrder, secrets: Secrets, endpoints: Endpoints, c: Constants)
    requires BuildL7Ready(g, vsName, ingName, Found(spec), order, c)
    requires |VsPositions(g.modelNodes)| == 1
    ensures var r := BuildL7VSGraph(g, vsName, ns, ingName, Found(spec), order, secrets, endpoints, c);
      var cfg := ParseHostPathForIngress(ingName, spec);
      && |VsPositions(r.modelNodes)| == 1
      && SharedVs(r).poolRefs == DetachIngressPools(SharedVs(g).poolRefs, ingName)
           + PlainPools(Routes(order.plainHosts, cfg.ingressHostMap), ns, ingName, endpoints, c)
      && SharedVs(r).sniNodes == SharedVs(g).sniNodes
           + SniChildren(SharedVs(g).name, ns, ingName, cfg.tlsCollection, order.sniHosts, secrets, endpoints, c)
  {
    BuildL7VSGraphEffect(g, vsName, ns, ingName, Found(spec), order, secrets, endpoints, c);
  }

  /** A pass for a deleted ingress only detaches its pools; a failed lookup changes no pool or SNI child. */
  lemma BuildL7VSGraphNotFound(g: AviObjectGraph, vsName: string, ns: string, ingName: string,
                               order: PassOrder, secrets: Secrets, endpoints: Endpoints, c: Constants)
    requires BuildL7Ready(g, vsName, ingName, NotFound, order, c)
    requires |VsPositions(g.modelNodes)| == 1
    ensures var r := BuildL7VSGraph(g, vsName, ns, ingName, NotFound, order, secrets, endpoints, c);
      var r' := BuildL7VSGraph(g, vsName, ns, ingName, LookupFailed, order, secrets, endpoints, c);
      && |VsPositions(r.modelNodes)| == 1 && |VsPositions(r'.modelNodes)| == 1
      && (forall p :: p in SharedVs(r).poolRefs <==> p in SharedVs(g).poolRefs && p.ingressName != ingName)
      && SharedVs(r).sniNodes == SharedVs(g).sniNodes
      && SharedVs(r').poolRefs == SharedVs(g).poolRefs
      && SharedVs(r').sniNodes == SharedVs(g).sniNodes
  {
    BuildL7VSGraphEffect(g, vsName, ns, ingName, NotFound, order, secrets, endpoints, c);
    BuildL7VSGraphEffect(g, vsName, ns, ingName, LookupFailed, order, secrets, endpoints, c);
    DetachMembers(SharedVs(g).poolRefs, ingName);
  }

  // ---------------------------------------------------------------------
  // Iteration order and permutations
  // ---------------------------------------------------------------------

  function MapSeq<A, B>(f: A -> B, s: seq<A>): (r: seq<B>)
    ensures |r| == |s| && forall k :: 0 <= k < |s| ==> r[k] == f(s[k])
  {
    seq(|s|, k requires 0 <= k < |s| => f(s[k]))
  }

  lemma MapSeqAppend<A, B>(f: A -> B, a: seq<A>, b: seq<A>)
    ensures MapSeq(f, a + b) == MapSeq(f, a) + MapSeq(f, b)
  {
    assert forall k :: 0 <= k < |a + b| ==> MapSeq(f, a + b)[k] == (MapSeq(f, a) + MapSeq(f, b))[k];
  }

  /** Mapping two permutations of each other gives permutations of each other. */
  lemma {:induction false} MapSeqPermutation<A, B>(f: A -> B, a: seq<A>, b: seq<A>)
    requires multiset(a) == multiset(b)
    ensures multiset(MapSeq(f, a)) == multiset(MapSeq(f, b))
    decreases |a|
  {
    if |a| == 0 {
      assert |b| == |multiset(b)| == 0;
    } else {
      var x := a[0];
      assert x in multiset(b);
      var p :| 0 <= p < |b| && b[p] == x;
      var left, right := b[..p], b[p + 1..];
      assert b == left + [x] + right;
      assert a == [x] + a[1..];
      assert multiset(a) == multiset{x} + multiset(a[1..]);
      assert multiset(b) == multiset(left) + multiset{x} + multiset(right);
      assert multiset(a[1..]) == multiset(a) - multiset{x};
      assert multiset(left + right) == multiset(b) - multiset{x};
      MapSeqPermutation(f, a[1..], left + right);
      MapSeqAppend(f, [x], a[1..]);
      MapSeqAppend(f, left + [x], right);
      MapSeqAppend(f, left, [x]);
      MapSeqAppend(f, left, right);
    }
  }

  lemma {:induction false} RoutesAppend(a: seq<string>, b: seq<string>, m: IngressHostMap)
    requires forall h :: h in a + b ==> h in m
    ensures Routes(a + b, m) == Routes(a, m) + Routes(b, m)
    decreases |a|
  {
    if |a| == 0 {
      assert a + b == b;
    } else {
      assert (a + b)[0] == a[0];
      assert (a + b)[1..] == a[1..] + b;
      RoutesAppend(a[1..], b, m);
    }
  }

  /** Taking the host at `p` out of an order takes out exactly that host's visits. */
  lemma RoutesRemoveAt(o: seq<string>, p: nat, m: IngressHostMap)
    requires forall h :: h in o ==> h in m
    requires p < |o|
    ensures multiset(Routes(o, m)) == multiset(HostRoutes(o[p], m[o[p]])) + multiset(Routes(o[..p] + o[p + 1..], m))
  {
    var left, right := o[..p], o[p + 1..];
    assert o == left + ([o[p]] + right);
    RoutesAppend(left, [o[p]] + right, m);
    assert Routes([o[p]] + right, m) == HostRoutes(o[p], m[o[p]]) + Routes(right, m);
    RoutesAppend(left, right, m);
  }

  /** Two duplicate-free orders of the same hosts still agree once their common first host is taken out. */
  lemma SameHostsRemoveFirst(o1: seq<string>, o2: seq<string>, p: nat)
    requires DistinctHosts(o1) && DistinctHosts(o2)
    requires forall h :: h in o1 <==> h in o2
    requires |o1| > 0 && p < |o2| && o2[p] == o1[0]
    ensures var rest := o2[..p] + o2[p + 1..];
      && DistinctHosts(o1[1..]) && DistinctHosts(rest)
      && forall x :: x in o1[1..] <==> x in rest
  {
    var h := o1[0];
    var rest := o2[..p] + o2[p + 1..];
    assert forall i :: 0 <= i < |rest| ==> rest[i] == o2[if i < p then i else i + 1];
    assert forall i :: 0 <= i < |o1[1..]| ==> o1[1..][i] == o1[i + 1];
    forall x
      ensures x in o1[1..] <==> x in rest
    {
      if x in o1[1..] {
        var i :| 0 <= i < |o1[1..]| && o1[1..][i] == x;
        assert x in o1 && x in o2 && x != h;
        var j :| 0 <= j < |o2| && o2[j] == x;
        assert rest[if j < p then j else j - 1] == x;
      }
      if x in rest {
        var j :| 0 <= j < |rest| && rest[j] == x;
        assert x in o2 && x != h;
        var i :| 0 <= i < |o1| && o1[i] == x;
        assert o1[1..][i - 1] == x;
      }
    }
  }

  /** Two duplicate-free orders of the same hosts visit the same (host, binding) pairs, as a multiset. */
  lemma {:induction false} RoutesPermutation(o1: seq<string>, o2: seq<string>, m: IngressHostMap)
    requires DistinctHosts(o1) && DistinctHosts(o2)
    requires forall h :: h in o1 ==> h in m
    requires forall h :: h in o1 <==> h in o2
    ensures multiset(Routes(o1, m)) == multiset(Routes(o2, m))
    decreases |o1|
  {
    if |o1| > 0 {
      var h := o1[0];
      assert h in o2;
      var p :| 0 <= p < |o2| && o2[p] == h;
      RoutesRemoveAt(o2, p, m);
      SameHostsRemoveFirst(o1, o2, p);
      RoutesPermutation(o1[1..], o2[..p] + o2[p + 1..], m);
      assert Routes(o1, m) == HostRoutes(h, m[h]) + Routes(o1[1..], m);
    }
  }

  /** Whatever order a pass takes the plain hosts in, it rebuilds the same pools, as a multiset. */
  lemma PlainPoolsOrderFree(o1: seq<string>, o2: seq<string>, m: IngressHostMap, ns: string, ingName: string,
                            endpoints: Endpoints, c: Constants)
    requires Enumerates(o1, m) && Enumerates(o2, m)
    ensures multiset(PlainPools(Routes(o1, m), ns, ingName, endpoints, c))
         == multiset(PlainPools(Routes(o2, m), ns, ingName, endpoints, c))
  {
    var f := (r: Route) => PlainPool(r, ns, ingName, endpoints, c);
    RoutesPermutation(o1, o2, m);
    MapSeqPermutation(f, Routes(o1, m), Routes(o2, m));
    PlainPoolsMapped(f, Routes(o1, m), ns, ingName, endpoints, c);
    PlainPoolsMapped(f, Routes(o2, m), ns, ingName, endpoints, c);
  }

  lemma PlainPoolsMapped(f: Route -> PoolNode, rs: seq<Route>, ns: string, ingName: string, endpoints: Endpoints, c: Constants)
    requires forall r :: f(r) == PlainPool(r, ns, ingName, endpoints, c)
    ensures PlainPools(rs, ns, ingName, endpoints, c) == MapSeq(f, rs)
  {
  }

  /** Pool lists that are permutations of each other give pool-group members that are. */
  lemma MembersPermutation(p1: seq<PoolNode>, p2: seq<PoolNode>)
    requires multiset(p1) == multiset(p2)
    ensures multiset(PoolGroupMembers(p1)) == multiset(PoolGroupMembers(p2))
  {
    var f := (p: PoolNode) => PoolGroupMember(PoolRef(p.name), Some(p.priorityLabel));
    MapSeqPermutation(f, p1, p2);
    MembersMapped(f, p1);
    MembersMapped(f, p2);
  }

  lemma MembersMapped(f: PoolNode -> PoolGroupMember, ps: seq<PoolNode>)
    requires forall p :: f(p) == PoolGroupMember(PoolRef(p.name), Some(p.priorityLabel))
    ensures PoolGroupMembers(ps) == MapSeq(f, ps)
  {
  }

  /** Two child lists name the same children in the same positions. */
  predicate SameChildNames(a: seq<VsNode>, b: seq<VsNode>)
  {
    |a| == |b| && forall k :: 0 <= k < |a| ==> a[k].name == b[k].name
  }

  /** The SNI children of a pass are the same in number and name whatever orders it walks the groupings in. */
  lemma {:induction false} SniChildrenOrderFree(parentName: string, ns: string, ingName: string, tls: seq<TlsSettings>,
                                                o1: seq<seq<string>>, o2: seq<seq<string>>,
                                                secrets: Secrets, endpoints: Endpoints, c: Constants)
    requires SniOrdersFit(tls, o1) && SniOrdersFit(tls, o2)
    ensures var k1 := SniChildren(parentName, ns, ingName, tls, o1, secrets, endpoints, c);
      var k2 := SniChildren(parentName, ns, ingName, tls, o2, secrets, endpoints, c);
      SameChildNames(k1, k2)
    decreases |tls|
  {
    if |tls| > 0 {
      var secretName := tls[0].secretName;
      var cert := BuildTlsCertNode(SniChildNode(parentName, ingName, secretName, c), ns, secretName, secrets, c);
      var head1 := if cert.0 then [BuildPolicyPGPoolsForSNI(cert.1, ns, ingName, tls[0], secretName, o1[0], endpoints, c)] else [];
      var head2 := if cert.0 then [BuildPolicyPGPoolsForSNI(cert.1, ns, ingName, tls[0], secretName, o2[0], endpoints, c)] else [];
      SniChildrenOrderFree(parentName, ns, ingName, tls[1..], o1[1..], o2[1..], secrets, endpoints, c);
      SniChildrenUnfold(parentName, ns, ingName, tls, o1, secrets, endpoints, c);
      SniChildrenUnfold(parentName, ns, ingName, tls, o2, secrets, endpoints, c);
      assert SameChildNames(head1, head2) by {
        if cert.0 {
          assert ChildFor(head1[0], parentName, ns, ingName, secretName, secrets, c);
          assert ChildFor(head2[0], parentName, ns, ingName, secretName, secrets, c);
        }
      }
      SameChildNamesConcat(head1, head2,
        SniChildren(parentName, ns, ingName, tls[1..], o1[1..], secrets, endpoints, c),
        SniChildren(parentName, ns, ingName, tls[1..], o2[1..], secrets, endpoints, c));
    }
  }

  lemma SameChildNamesConcat(h1: seq<VsNode>, h2: seq<VsNode>, r1: seq<VsNode>, r2: seq<VsNode>)
    requires SameChildNames(h1, h2) && SameChildNames(r1, r2)
    ensures SameChildNames(h1 + r1, h2 + r2)
  {
    forall k | 0 <= k < |h1 + r1|
      ensures (h1 + r1)[k].name == (h2 + r2)[k].name
    {
      if k >= |h1| {
        assert (h1 + r1)[k] == r1[k - |h1|] && (h2 + r2)[k] == r2[k - |h1|];
      }
    }
  }

  /** Detaching after a rebuild gives back the pools the first detach kept. */
  lemma RebuildStable(pools: seq<PoolNode>, rebuilt: seq<PoolNode>, ingName: string)
    requires forall i :: 0 <= i < |rebuilt| ==> rebuilt[i].ingressName == ingName
    ensures DetachIngressPools(DetachIngressPools(pools, ingName) + rebuilt, ingName) == DetachIngressPools(pools, ingName)
  {
    var kept := DetachIngressPools(pools, ingName);
    DetachAppend(kept, rebuilt, ingName);
    DetachIdempotent(pools, ingName);
    DetachDropsOwned(rebuilt, ingName);
    assert kept + [] == kept;
  }

  /**
   * The pools of two passes of unchanged inputs over a VS, the second walking
   * the maps in an order of its own: the kept pools stay in front, and the
   * pool list is the same up to order (the same list when the plain hosts are
   * walked in the same order).
   */
  lemma PassPoolsRepeat(vs0: VsNode, vsMid: VsNode, ns: string, ingName: string, lookup: IngressLookup,
                        o1: PassOrder, o2: PassOrder, secrets: Secrets, endpoints: Endpoints, c: Constants)
    requires lookup.Found? ==> ValidPassOrder(o1, ParseHostPathForIngress(ingName, lookup.spec))
    requires lookup.Found? ==> ValidPassOrder(o2, ParseHostPathForIngress(ingName, lookup.spec))
    requires vsMid.poolRefs == PassPools(vs0, ns, ingName, lookup, o1, secrets, endpoints, c).poolRefs
    ensures var n := |DetachIngressPools(vs0.poolRefs, ingName)|;
      var p1 := vsMid.poolRefs;
      var p2 := PassPools(vsMid, ns, ingName, lookup, o2, secrets, endpoints, c).poolRefs;
      && n <= |p1| && n <= |p2| && p2[..n] == p1[..n]
      && multiset(p2) == multiset(p1)
      && (o1.plainHosts == o2.plainHosts ==> p2 == p1)
  {
    match lookup {
      case LookupFailed =>
      case NotFound =>
        DetachIdempotent(vs0.poolRefs, ingName);
      case Found(spec) =>
        var cfg := ParseHostPathForIngress(ingName, spec);
        var kept := DetachIngressPools(vs0.poolRefs, ingName);
        var r1 := PlainPools(Routes(o1.plainHosts, cfg.ingressHostMap), ns, ingName, endpoints, c);
        var r2 := PlainPools(Routes(o2.plainHosts, cfg.ingressHostMap), ns, ingName, endpoints, c);
        RebuildStable(vs0.poolRefs, r1, ingName);
        assert vsMid.poolRefs == kept + r1;
        assert PassPools(vsMid, ns, ingName, lookup, o2, secrets, endpoints, c).poolRefs == kept + r2;
        PlainPoolsOrderFree(o1.plainHosts, o2.plainHosts, cfg.ingressHostMap, ns, ingName, endpoints, c);
        assert (kept + r2)[..|kept|] == kept == (kept + r1)[..|kept|];
    }
  }

  /**
   * The SNI children of two passes of unchanged inputs: the list is never
   * cleared, and grows again by children of the same names (the same
   * children when the groupings are walked in the same orders).
   */
  lemma PassSniRepeat(vs0: VsNode, vsMid: VsNode, ns: string, ingName: string, lookup: IngressLookup,
                      o1: PassOrder, o2: PassOrder, secrets: Secrets, endpoints: Endpoints, c: Constants)
    requires lookup.Found? ==> ValidPassOrder(o1, ParseHostPathForIngress(ingName, lookup.spec))
    requires lookup.Found? ==> ValidPassOrder(o2, ParseHostPathForIngress(ingName, lookup.spec))
    requires vsMid.sniNodes == PassPools(vs0, ns, ingName, lookup, o1, secrets, endpoints, c).sniNodes
    requires vsMid.name == vs0.name
    ensures var s0 := |vs0.sniNodes|;
      var s1 := vsMid.sniNodes;
      var s2 := PassPools(vsMid, ns, ingName, lookup, o2, secrets, endpoints, c).sniNodes;
      && s0 <= |s1| <= |s2| && s2[..|s1|] == s1
      && SameChildNames(s2[|s1|..], s1[s0..])
      && (o1.sniHosts == o2.sniHosts ==> s2 == s1 + s1[s0..])
  {
    match lookup {
      case LookupFailed =>
      case NotFound =>
      case Found(spec) =>
        var cfg := ParseHostPathForIngress(ingName, spec);
        var k1 := SniChildren(vs0.name, ns, ingName, cfg.tlsCollection, o1.sniHosts, secrets, endpoints, c);
        var k2 := SniChildren(vs0.name, ns, ingName, cfg.tlsCollection, o2.sniHosts, secrets, endpoints, c);
        SniChildrenOrderFree(vs0.name, ns, ingName, cfg.tlsCollection, o2.sniHosts, o1.sniHosts, secrets, endpoints, c);
        assert vsMid.sniNodes == vs0.sniNodes + k1;
        assert vsMid.sniNodes[|vs0.sniNodes|..] == k1;
        var s2 := PassPools(vsMid, ns, ingName, lookup, o2, secrets, endpoints, c).sniNodes;
        assert s2 == vsMid.sniNodes + k2;
        assert s2[|vsMid.sniNodes|..] == k2;
    }
  }

  /** The shared VS and pool group after a pass, without the pool-group references. */
  lemma PassOutcome(g: AviObjectGraph, vsName: string, ns: string, ingName: string, lookup: IngressLookup,
                    order: PassOrder, secrets: Secrets, endpoints: Endpoints, c: Constants)
    requires BuildL7Ready(g, vsName, ingName, lookup, order, c)
    requires |VsPositions(g.modelNodes)| == 1
    ensures var r := BuildL7VSGraph(g, vsName, ns, ingName, lookup, order, secrets, endpoints, c);
      var pgName := SharedPoolGroupName(vsName, c);
      var vs := PassPools(SharedVs(g), ns, ingName, lookup, order, secrets, endpoints, c);
      && |VsPositions(r.modelNodes)| == 1
      && PoolGroupPosition(r.modelNodes, pgName).Some?
      && SharedVs(r).poolRefs == vs.poolRefs
      && SharedVs(r).sniNodes == vs.sniNodes
      && SharedVs(r).name == SharedVs(g).name
      && SharedPoolGroup(r, pgName).members == PoolGroupMembers(vs.poolRefs)
  {
    BuildL7VSGraphEffect(g, vsName, ns, ingName, lookup, order, secrets, endpoints, c);
  }

  /**
   * Repeating a pass with unchanged inputs, the second pass free to walk the
   * maps in another order: the other ingresses' pools stay in front and the
   * pool list and the pool group's members are the same up to order (the
   * same lists when the plain hosts come in the same order); the SNI child
   * list, never cleared, grows again by children of the same names.
   */
  lemma BuildL7VSGraphRepeat(g: AviObjectGraph, vsName: string, ns: string, ingName: string, lookup: IngressLookup,
                             o1: PassOrder, o2: PassOrder, secrets: Secrets, endpoints: Endpoints, c: Constants)
    requires BuildL7Ready(g, vsName, ingName, lookup, o1, c)
    requires BuildL7Ready(g, vsName, ingName, lookup, o2, c)
    ensures BuildL7Ready(BuildL7VSGraph(g, vsName, ns, ingName, lookup, o1, secrets, endpoints, c), vsName, ingName, lookup, o2, c)
    ensures var g1 := BuildL7VSGraph(g, vsName, ns, ingName, lookup, o1, secrets, endpoints, c);
      var g2 := BuildL7VSGraph(g1, vsName, ns, ingName, lookup, o2, secrets, endpoints, c);
      var pgName := SharedPoolGroupName(vsName, c);
      |VsPositions(g.modelNodes)| == 1 ==>
        && |VsPositions(g1.modelNodes)| == 1
        && (var n := |DetachIngressPools(SharedVs(g).poolRefs, ingName)|;
            var p1 := SharedVs(g1).poolRefs;
            var p2 := SharedVs(g2).poolRefs;
            && n <= |p1| && n <= |p2| && p2[..n] == p1[..n]
            && multiset(p2) == multiset(p1)
            && SharedPoolGroup(g2, pgName).members == PoolGroupMembers(p2)
            && multiset(SharedPoolGroup(g2, pgName).members) == multiset(SharedPoolGroup(g1, pgName).members)
            && (o1.plainHosts == o2.plainHosts ==>
                  p2 == p1 && SharedPoolGroup(g2, pgName).members == SharedPoolGroup(g1, pgName).members))
        && (var s0 := |SharedVs(g).sniNodes|;
            var s1 := SharedVs(g1).sniNodes;
            var s2 := SharedVs(g2).sniNodes;
            && s0 <= |s1| <= |s2| && s2[..|s1|] == s1
            && SameChildNames(s2[|s1|..], s1[s0..]))
  {
    var pgName := SharedPoolGroupName(vsName, c);
    var g1 := BuildL7VSGraph(g, vsName, ns, ingName, lookup, o1, secrets, endpoints, c);
    SameShapesSameLookups(g.modelNodes, g1.modelNodes, pgName);
    if |VsPositions(g.modelNodes)| == 1 {
      PassOutcome(g, vsName, ns, ingName, lookup, o1, secrets, endpoints, c);
      PassOutcome(g1, vsName, ns, ingName, lookup, o2, secrets, endpoints, c);
      PassPoolsRepeat(SharedVs(g), SharedVs(g1), ns, ingName, lookup, o1, o2, secrets, endpoints, c);
      PassSniRepeat(SharedVs(g), SharedVs(g1), ns, ingName, lookup, o1, o2, secrets, endpoints, c);
      var g2 := BuildL7VSGraph(g1, vsName, ns, ingName, lookup, o2, secrets, endpoints, c);
      MembersPermutation(SharedVs(g2).poolRefs, SharedVs(g1).poolRefs);
    }
  }

  /**
   * Building the skeleton into a registry without a VS yields a registry in
   * which a pass can run: exactly one VS, and the shared pool group present.
   */
  lemma ConstructEnablesBuild(g: AviObjectGraph, vsName: string, c: Constants)
    requires VsPositions(g.modelNodes) == []
    ensures var r := ConstructAviL7VsNode(g, vsName, c);
      && VsPositions(r.graph.modelNodes) == [|g.modelNodes|]
      && PoolGroupPosition(r.graph.modelNodes, SharedPoolGroupName(vsName, c)).Some?
      && SharedVs(r.graph) == r.vs
    ensures var r := ConstructAviL7VsNode(g, vsName, c);
      var pgName := SharedPoolGroupName(vsName, c);
      PoolGroupPosition(g.modelNodes, pgName).None? ==>
        && PoolGroupPosition(r.graph.modelNodes, pgName) == Some(|g.modelNodes| + 1)
        && SharedPoolRefsAliased(r.graph, pgName)
  {
    var r := ConstructAviL7VsNode(g, vsName, c);
    var pgName := SharedPoolGroupName(vsName, c);
    SkeletonLookups(g.modelNodes, r.graph, r.vs, pgName);
    if PoolGroupPosition(g.modelNodes, pgName).None? {
      SkeletonAliased(g.modelNodes, r.graph, r.vs, pgName);
    }
  }

  /** The skeleton registered after no VS: it is the one VS, and its pool group can be found. */
  lemma SkeletonLookups(nodes: seq<ModelNode>, g: AviObjectGraph, vs: VsNode, pgName: string)
    requires |vs.poolGroupRefs| == 1 && vs.poolGroupRefs[0].name == pgName && |vs.httpDsRefs| == 1
    requires g.modelNodes == nodes + [VsModel(vs), PoolGroupModel(vs.poolGroupRefs[0]), DataScriptModel(vs.httpDsRefs[0])]
    requires VsPositions(nodes) == []
    ensures VsPositions(g.modelNodes) == [|nodes|]
    ensures PoolGroupPosition(g.modelNodes, pgName).Some?
    ensures SharedVs(g) == vs
  {
    var n := |nodes|;
    var pg := PoolGroupModel(vs.poolGroupRefs[0]);
    var a := nodes + [VsModel(vs)];
    var b := a + [pg];
    var all := b + [DataScriptModel(vs.httpDsRefs[0])];
    assert g.modelNodes == all;
    VsPositionsAppend(nodes, VsModel(vs));
    VsPositionsAppend(a, pg);
    VsPositionsAppend(b, DataScriptModel(vs.httpDsRefs[0]));
    assert all[n + 1] == pg;
  }

  /** The skeleton registered after no pool group of the shared name: the VS's one reference is the registered pool group. */
  lemma SkeletonAliased(nodes: seq<ModelNode>, g: AviObjectGraph, vs: VsNode, pgName: string)
    requires |vs.poolGroupRefs| == 1 && vs.poolGroupRefs[0].name == pgName && |vs.httpDsRefs| == 1
    requires g.modelNodes == nodes + [VsModel(vs), PoolGroupModel(vs.poolGroupRefs[0]), DataScriptModel(vs.httpDsRefs[0])]
    requires |VsPositions(g.modelNodes)| == 1 && SharedVs(g) == vs
    requires PoolGroupPosition(nodes, pgName).None?
    ensures PoolGroupPosition(g.modelNodes, pgName) == Some(|nodes| + 1)
    ensures SharedPoolRefsAliased(g, pgName)
  {
    FreshPoolGroupFound(nodes, VsModel(vs), vs.poolGroupRefs[0], DataScriptModel(vs.httpDsRefs[0]));
    assert SharedPoolGroup(g, pgName) == vs.poolGroupRefs[0];
  }

  /** Registering a VS, a pool group and a third node after no pool group of that name: the lookup finds the new one. */
  lemma FreshPoolGroupFound(nodes: seq<ModelNode>, v: ModelNode, pg: PoolGroupNode, d: ModelNode)
    requires PoolGroupPosition(nodes, pg.name).None?
    requires !v.PoolGroupModel?
    ensures PoolGroupPosition(nodes + [v, PoolGroupModel(pg), d], pg.name) == Some(|nodes| + 1)
  {
    var all := nodes + [v, PoolGroupModel(pg), d];
    var p := PoolGroupPosition(all, pg.name);
    assert all[|nodes| + 1] == PoolGroupModel(pg);
    assert forall j :: 0 <= j < |nodes| ==> all[j] == nodes[j];
    assert all[|nodes|] == v;
  }

  /**
   * Every entry of the shared VS's pool-group list that carries the shared
   * name is the registered shared pool group: the state in which the Go
   * pointer and its copy in the list are one object.
   */
  predicate SharedPoolRefsAliased(g: AviObjectGraph, pgName: string)
  {
    && |VsPositions(g.modelNodes)| == 1
    && PoolGroupPosition(g.modelNodes, pgName).Some?
    && forall k :: 0 <= k < |SharedVs(g).poolGroupRefs| && SharedVs(g).poolGroupRefs[k].name == pgName ==>
         SharedVs(g).poolGroupRefs[k] == SharedPoolGroup(g, pgName)
  }

  /** A pass keeps the VS's references to the shared pool group equal to the registered one. */
  lemma PassKeepsAliased(g: AviObjectGraph, vsName: string, ns: string, ingName: string, lookup: IngressLookup,
                         order: PassOrder, secrets: Secrets, endpoints: Endpoints, c: Constants)
    requires BuildL7Ready(g, vsName, ingName, lookup, order, c)
    requires SharedPoolRefsAliased(g, SharedPoolGroupName(vsName, c))
    ensures SharedPoolRefsAliased(BuildL7VSGraph(g, vsName, ns, ingName, lookup, order, secrets, endpoints, c), SharedPoolGroupName(vsName, c))
  {
    BuildL7VSGraphEffect(g, vsName, ns, ingName, lookup, order, secrets, endpoints, c);
  }
}

=== FILE: strings.dfy ===
/** Substring search and the single replacement that Go's `strings.Replace(s, old, new, 1)` performs. */
module Strings {
  import opened Wrappers

  /** True when `pat` occurs in `s` starting at index `i`. */
  predicate OccursAt(s: string, pat: string, i: nat)
  {
    i + |pat| <= |s| && s[i..i + |pat|] == pat
  }

  /** True when `i` is the leftmost index at which `pat` occurs in `s`. */
  predicate FirstOccurrence(s: string, pat: string, i: nat)
  {
    OccursAt(s, pat, i) && forall j: nat :: j < i ==> !OccursAt(s, pat, j)
  }

  /** The leftmost index at or after `from` where `pat` occurs in `s`. */
  function FindFrom(s: string, pat: string, from: nat): (r: Option<nat>)
    requires from <= |s|
    ensures r.Some? ==> from <= r.value <= |s| && OccursAt(s, pat, r.value)
    ensures r.Some? ==> forall j: nat :: from <= j < r.value ==> !OccursAt(s, pat, j)
    ensures r.None? ==> forall j: nat :: from <= j ==> !OccursAt(s, pat, j)
    decreases |s| - from
  {
    if OccursAt(s, pat, from) then Some(from)
    else if from == |s| then None
    else FindFrom(s, pat, from + 1)
  }

  /**
   * Replaces the leftmost occurrence of `pat` in `s` by `rep`; without an
   * occurrence the string is returned unchanged.
   */
  function ReplaceFirst(s: string, pat: string, rep: string): (r: string)
    ensures forall i: nat :: FirstOccurrence(s, pat, i) ==> r == s[..i] + rep + s[i + |pat|..]
    ensures (forall i: nat :: !OccursAt(s, pat, i)) ==> r == s
  {
    match FindFrom(s, pat, 0)
    case None => s
    case Some(i) =>
      assert FirstOccurrence(s, pat, i);
      s[..i] + rep + s[i + |pat|..]
  }
}

=== FILE: wrappers.dfy ===
/** Optional values: a Go nil pointer or a missing map entry becomes `None`. */
module Wrappers {

  datatype Option<+T> = None | Some(value: T)
}
